=== FILE: README.md ===
# uniflux core, modelled in Dafny

uniflux gathers crypto news from Telegram channels. It summarises the links
posted in them, buckets the messages by topic, and sells subscriptions paid
in TON. This project models five parts of it, one Dafny module each.

- **`Parser`** (`parser.dfy`): the link-summary extraction.
  - `process_extraction_result` reduces the extraction service's raw answer to
    `{success, content}`. For a list answer it keeps the dict items whose `error`
    is exactly `False` and that have `summarized_content`, and picks the first
    longest one. A single dict succeeds only with a non-empty string.
  - The url-keyed `link_summaries` table is the class `LinkCache`, written by
    insert-or-replace.
  - `extract_summary` looks in the cache first. Then it makes one attempt, or in
    retry mode up to five attempts with a delay of 1 s multiplied by 1.5 after
    each failed attempt except the last.
- **`DataFetcher`** (`data_fetcher.dfy`): message fetching and enrichment.
  - Links come from message entities.
  - Messages are serialised.
  - The backward paging loop collects the messages dated after a boundary. It
    stops at the first message at or before the boundary, at an empty page, or
    at a page shorter than 100 messages.
  - `https://t.me/...` identifiers are normalised to a handle.
  - Each message's `link_summaries` is filled from the cache or the extractor.
- **`DataSummarizer`** (`data_summarizer.dfy`): `process_and_aggregate_news` files each
  message's internal id under each of three fixed topics whose keywords occur
  in its lower-cased text.
- **`Payments`** (`payment_processor.dfy`): the `PaymentProcessor` class.
  - The two tables are maps keyed by payment id and by user id.
  - Payments move from pending to expired (lazily, on a check) or to confirmed.
  - A subscription's expiry is extended from a future expiry, or else restarted
    from now.
  - An expired subscription is deactivated when it is checked.
- **`SourceTypes`** (`update_source_types.dfy`): `update_existing_sources`.
  - Every source with a NULL or empty type is classified: `telegram` for urls
    matching `^https?://t\.me/`, and `rss` otherwise.
  - It returns the number of rows updated.
  - The whole run is rolled back to 0 when a selected url is NULL.
- **`Values`** (`values.dfy`): Option, JSON values with Python truthiness, and the string tests
  the modules share.

Inputs stand in for the outside world:
- The crawler is a function from (url, attempt number) to the data it returns or
  an exception.
- A channel's history is a sequence of pages: `pages[k]` answers the k-th
  request.
- The chain explorer's answer is a value.
- Time is an integer number of seconds passed in as `now`.
- Amounts are integers in nanotons.

The code on the Python side that changes state step by step is modelled as
methods with loops and invariants:
- the retry loop;
- the paging loop;
- the link-filling loops;
- the bucketing loop;
- the tier and transaction scans;
- the update loop.

Each such method is proved equal to a specification function. Lemmas about
those functions state what the source promises.

## Model

| member | source | states |
|---|---|---|
| `Parser.Candidates` | parser.py:237-240 | an item is a candidate exactly when it is a dict item of the list whose `error` is exactly `False` and that has `summarized_content`; the candidates are items of the list and no more than them |
| `Parser.CandidatesAppend` | parser.py:237-240 | the list is filtered item by item: the candidates of a concatenation are those of each part, in order, and one item is kept exactly when it is a candidate, so order and repeats are kept |
| `Parser.LongestIndex` | parser.py:246-250 | the selected candidate has the largest key (a string content's length, 0 for other content), and every earlier candidate is strictly shorter (the first maximal one wins) |
| `Parser.FirstLongestUnique` | parser.py:246-250 | only one position is the first longest, so the selection is determined |
| `Parser.ProcessExtractionResult` | parser.py:213-292 | a list with no candidate gives `success=0, content=""` and no save; otherwise the first longest candidate is taken, and its content is returned with success when it is a string, list or dict, while any other content (whose length cannot be taken) ends in `success=0, content=""` with no save; a dict with falsy `error` and `summarized_content` returns that content and succeeds exactly when it is a non-empty string; a dict with a string `content` returns it and succeeds exactly when it is non-empty; anything else fails; a save is requested only for success with truthy content and a non-empty url, and always then when the caller gave one |
| `Parser.Upsert` | parser.py:104-108 | after insert-or-replace the url maps to the content, every other row is unchanged, and only the url is added |
| `Parser.UpsertIdempotent` | parser.py:104-108 | saving the same (url, content) twice leaves the table as saving it once |
| `Parser.CachedResult` | parser.py:313-320 | a cache hit succeeds exactly when the stored content is truthy, returning it; otherwise `success=0, content=""` |
| `Parser.ExtractOnce` | parser.py:312-342 | a cached url answers from the cache and leaves it unchanged; otherwise the answer is the processed crawl; no stored entry is altered, and the table gains at most this url, only with an accepted content |
| `Parser.BackoffGrows` | parser.py:346-368 | every delay is at least 1 s and each delay is longer than the one before |
| `Parser.LinkCache.Get` | parser.py:52-80 | returns the stored content exactly when a row has the url |
| `Parser.LinkCache.Save` | parser.py:86-120 | upserts the row and reports success when the content can be bound; otherwise reports failure and changes nothing |
| `Parser.LinkCache.ProcessAndSave` | parser.py:279-287 | returns the processed result and leaves the table as the save that result calls for |
| `Parser.LinkCache.Attempt` | parser.py:351-357 | one crawl and its processing; an exception from the crawl is a failure that saves nothing |
| `Parser.LinkCache.ExtractSummary` | parser.py:294-380 | a cache hit makes no crawl; without retries exactly one attempt; with retries 1 to 5 attempts, every attempt before the last rejected, the last one's result returned if accepted and otherwise failure after 5 attempts; delays 1, 1.5, 2.25, ... with none after the last attempt |
| `DataFetcher.PySlice` | data_fetcher.py:69 | `text[offset:offset+length]` for an offset inside the text is the part of the text that starts at the offset, as long as the span with its end cut at the end of the text (empty when that end is not past the offset) |
| `DataFetcher.EntityLink` | data_fetcher.py:58-72 | an entity with a url contributes exactly that url; one without contributes only a `http://` or `https://` slice of the text at its offset: the whole in-range slice when it is one and nothing when it is not, the rest of the text when the span runs past its end, and nothing when the offset is outside the text |
| `DataFetcher.LinksOfBounded` | data_fetcher.py:55-74 | no more links than entities, and each link is what one of the entities contributes |
| `DataFetcher.LinksOfUrlEntities` | data_fetcher.py:58-64 | when every entity carries a url, the links are those urls in entity order |
| `DataFetcher.ExtractLinks` | data_fetcher.py:49-74 | the loop collects each entity's contribution, in entity order |
| `DataFetcher.Serialize` | data_fetcher.py:76-93 | a serialized message has no internal id and empty link summaries, and the message's id, date and text with the given channel url |
| `DataFetcher.SerializeMessage` | data_fetcher.py:76-93 | builds the serialized message, its links extracted by the loop |
| `DataFetcher.CollectFromPage` | data_fetcher.py:135-141 | appends the page's newer messages, serialized, until a message at or before the boundary, and reports whether one was met |
| `DataFetcher.OffsetsFromPages` | data_fetcher.py:110-148 | the first request uses the starting offset, and every later one uses the id of the last message of the page before, which was a full page read without meeting the boundary |
| `DataFetcher.RequestPage` | data_fetcher.py:113-148 | one turn of the paging loop: it records the offset used, stops on an empty page, a boundary or a short page, and otherwise moves the offset to the last id |
| `DataFetcher.FetchChannelMessagesSince` | data_fetcher.py:95-156 | the messages returned are the ones the pages give from the first request on, and the offsets sent are 0 then the last id of each full page read |
| `DataFetcher.UntilBoundary` | data_fetcher.py:139-141 | the longest prefix with no message at or before the boundary; the next message, if any, is at or before it |
| `DataFetcher.NewerOnlyMembers` | data_fetcher.py:136-138 | a message is kept exactly when it is one of the messages and is dated after the boundary (undated messages are skipped) |
| `DataFetcher.ScanPageReference` | data_fetcher.py:135-141 | scanning a page keeps its newer messages before the first boundary message, and stops exactly when the page has one |
| `DataFetcher.FetchFromReference` | data_fetcher.py:113-148 | the paging loop collects exactly the newer messages, in provider order, of the pages read before the first message at or before the boundary |
| `DataFetcher.Split` | data_fetcher.py:321 | `split('/')` gives one more part than there are separators; the last part is the text after the last separator |
| `DataFetcher.LinkSplitsInFour` | data_fetcher.py:320-323 | a `https://t.me/` identifier always splits into more than three parts |
| `DataFetcher.NormalizeIdentifier` | data_fetcher.py:318-325 | an identifier not starting with `https://t.me/` is used unchanged; a link is replaced by its last `/`-separated segment, which has no `/` |
| `DataFetcher.RaisingExtraction` | parser.py:328-342 | when the extraction raises, an uncached link is recorded with an empty summary and the cache is left as it was |
| `DataFetcher.SummarizeLink` | data_fetcher.py:339-366 | a truthy cached summary is used as is; otherwise the content `extract_summary` returns, or the error marker when its length cannot be taken; the cache keeps every entry and gains at most this link |
| `DataFetcher.EnrichLinksShape` | data_fetcher.py:339-366 | after the link loop every link has an entry in the summaries, entries for other keys are unchanged, and the cache keeps every entry |
| `DataFetcher.EnrichLinksValues` | data_fetcher.py:339-366 | each link's entry is exactly the summary `SummarizeLink` gives it on the cache the loop started with (a truthy cached summary, else the extracted content, else the len-error text), because the loop only ever adds the summary of the link it processes; the cache afterwards keeps every original entry and each added entry is such a summary |
| `DataFetcher.CachedLinkKept` | data_fetcher.py:343-347 | a link whose summary was already cached with a truthy value ends up with exactly that cached summary |
| `DataFetcher.SummarizeOnGrown` | data_fetcher.py:339-366 | on a cache the link loop has grown, a link gets the same summary as on the original cache, and the cache stays grown |
| `Parser.SuccessIsSized` | parser.py:246-276 | a successful extraction attempt has a content whose length can be taken |
| `DataFetcher.EnrichMessageShape` | data_fetcher.py:336-366 | enriching a message changes only its link summaries, adding one per link whose value is the summary `SummarizeLink` gives that link on the original cache, and keeps every cache entry |
| `DataFetcher.EnrichAll` | data_fetcher.py:336-366 | one enriched message per fetched message, in order |
| `DataFetcher.EnrichAllShape` | data_fetcher.py:336-366 | each enriched message is its fetched message with one summary per link added, each the summary `SummarizeLink` gives that link on the cache before the first message, and the cache keeps every entry |
| `DataFetcher.LinkSummary` | data_fetcher.py:341-366 | the summary recorded for one link and the cache afterwards are those of the specification |
| `DataFetcher.EnrichMessage` | data_fetcher.py:339-366 | the loop over a message's links gives the specified message and cache |
| `DataFetcher.EnrichMessages` | data_fetcher.py:336-366 | the loop over a channel's messages gives the specified messages and cache |
| `DataFetcher.FetchAll` | data_fetcher.py:318-372 | every channel identifier is a key of the result |
| `DataFetcher.FetchAllShape` | data_fetcher.py:331-372 | an unresolved channel maps to the empty list; a resolved one maps to its fetched messages, each with empty summaries before and, after, one summary per link, the summary `SummarizeLink` gives that link on the cache before the first channel; the cache keeps every entry |
| `DataFetcher.FetchedCachedLink` | data_fetcher.py:331-366 | in the result, a link of a fetched message whose summary was already cached with a truthy value carries that cached summary |
| `DataFetcher.FetchTelegramMessages` | data_fetcher.py:268-383 | without a ready client the result is empty and the cache unchanged; otherwise the channels are processed in order with the boundary 24 hours before now |
| `DataSummarizer.TopicIdsMembers` | data_summarizer.py:66-83 | an id is filed under a topic exactly when some message with that id has lower-cased text containing one of the topic's two phrases |
| `DataSummarizer.TopicIdsAppend` | data_summarizer.py:66-83 | bucketing a history in two parts files the first part's ids before the second's: ids keep input order |
| `DataSummarizer.FileUnder` | data_summarizer.py:71-73 | `setdefault(name, []).append(id)`: the key is added if missing, the id appended, and other keys unchanged |
| `DataSummarizer.FileTopic` | data_summarizer.py:70-83 | one keyword test: the topic's bucket becomes that of the longer history, and other topics' buckets are unchanged |
| `DataSummarizer.FileMessage` | data_summarizer.py:67-83 | one turn of the loop: every topic's bucket is that of the history with this message added, so one message may be filed under several topics |
| `DataSummarizer.FiledBuckets` | data_summarizer.py:65-85 | every bucket present is non-empty, and an empty history gives an empty mapping |
| `DataSummarizer.ProcessAndAggregateNews` | data_summarizer.py:65-85 | keys are topic names only; a topic is a key exactly when some message is about it, holding those messages' ids in input order; every list is non-empty; an empty history gives `{}` |
| `Payments.TierNamed` | payment_processor.py:51-54 | finds a tier with the name, or none when no tier of the table has it |
| `Payments.FirstMatchingTier` | payment_processor.py:219-224 | the first tier whose price is within 0.01 TON of the amount, or none when no tier matches |
| `Payments.DefaultTierPrices` | payment_config.py:28-39 | with the configured table, the basic price buys basic and twice it buys premium |
| `Payments.WithStatus` | payment_processor.py:136-147 | the status always changes; hash and confirmation time are set only when the status is confirmed and a hash is given; nothing else changes |
| `Payments.Checked` | payment_processor.py:107-111 | a pending payment becomes expired exactly when now is past its expiry; non-pending statuses never change; only the status can change |
| `Payments.SubscriptionExpiry` | payment_processor.py:237-245 | the new expiry is a future current expiry plus the duration, else now plus the duration |
| `Payments.Subscribed` | payment_processor.py:226-262 | after a purchase the row is active with the matched tier, amount, hash, payment date now and the expiry rule's expiry |
| `Payments.Deactivated` | payment_processor.py:321-325 | the row becomes inactive, stamped now, with nothing else changed |
| `Payments.SubscriptionStatus` | payment_processor.py:289-309 | no active row gives no subscription; an active row is reported active exactly when its expiry is after now, with the row's tier, payment amount, payment date and expiry, and the whole days remaining |
| `Payments.PaymentTimeout` | payment_processor.py:57-111 | a new payment reads as pending up to its timeout, and as expired at any check after it |
| `Payments.CheckSettles` | payment_processor.py:107-111 | once a check has settled a payment, later checks change nothing |
| `Payments.PurchaseThenCheck` | payment_processor.py:237-309 | right after a purchase the user has an active subscription of the bought tier with at least the purchased days remaining |
| `Payments.RenewalStacks` | payment_processor.py:240-242 | buying while still subscribed adds the whole period to the current expiry |
| `Payments.DeactivatedThenCheck` | payment_processor.py:279-290 | a deactivated subscription is reported as no subscription |
| `Payments.FirstPaying` | payment_processor.py:190-196 | the first listed transaction whose incoming value is within 0.01 TON of the expected amount, or none |
| `Payments.PaymentProcessor.CreatePaymentRequest` | payment_processor.py:46-84 | an unknown tier is refused and nothing stored; otherwise a pending payment at the tier's price, expiring after the timeout, is stored and described |
| `Payments.PaymentProcessor.UpdatePaymentStatus` | payment_processor.py:130-156 | the payment's row takes the new status (and hash and time when confirmed with a hash); no other row changes |
| `Payments.PaymentProcessor.CheckPaymentStatus` | payment_processor.py:86-128 | an unknown id is not found; otherwise the row as checked now, the expiry being stored |
| `Payments.PaymentProcessor.MatchTier` | payment_processor.py:219-224 | the loop picks the first matching tier's name, else `basic` |
| `Payments.PaymentProcessor.CreateSubscription` | payment_processor.py:213-271 | the user's row becomes the purchased subscription (extended or restarted); when the matched tier is missing from the table nothing changes and failure is reported |
| `Payments.PaymentProcessor.FindPayingTx` | payment_processor.py:190-205 | the scan finds the first paying transaction |
| `Payments.PaymentProcessor.VerifyPayment` | payment_processor.py:158-211 | a payment not pending after the check is verified exactly when confirmed, without the chain; a pending one is confirmed with the first paying transaction's hash and buys the subscription; otherwise nothing changes and it is not verified |
| `Payments.PaymentProcessor.DeactivateSubscription` | payment_processor.py:315-331 | the user's row, if any, becomes inactive; no other row changes |
| `Payments.PaymentProcessor.CheckUserSubscription` | payment_processor.py:273-313 | reports the status of the user's row; only a row reported expired is deactivated |
| `SourceTypes.Selected` | update_source_types.py:43-44 | a selected row is a row of the table whose type is NULL or empty, every such row is selected, and there are no more of them than rows |
| `SourceTypes.SelectedAppend` | update_source_types.py:43-44 | the query filters row by row: the selection of a concatenation is that of each part, in table order |
| `SourceTypes.TelegramPatternMeaning` | update_source_types.py:58 | the pattern matches exactly the urls beginning with `http://t.me/` or `https://t.me/` |
| `SourceTypes.SourceTypeFor` | update_source_types.py:58-64 | `telegram` exactly for those urls, `rss` for every other url |
| `SourceTypes.Classified` | update_source_types.py:53-70 | selected rows get the type of their url, keeping id and url; rows not selected are unchanged |
| `SourceTypes.ClassifiedIsFinal` | update_source_types.py:43-70 | after a backfill nothing is selected, so a second run changes nothing |
| `SourceTypes.NothingSelected` | update_source_types.py:43-48 | with no type missing the selection is empty |
| `SourceTypes.ApplySelection` | update_source_types.py:53-71 | with ids as key, the per-row updates of the whole selection give exactly the classified table |
| `SourceTypes.NullUrlSelected` | update_source_types.py:55-58 | a selected row with a NULL url is a row the backfill cannot classify |
| `SourceTypes.UpdateSource` | update_source_types.py:57-70 | one turn of the loop sets the row's type to its url's type |
| `SourceTypes.SourceTable.UpdateExistingSources` | update_source_types.py:27-79 | with every selected url present, the count is the number of selected rows (0 when none) and the table is the classified one; otherwise the run is rolled back and returns 0 |

## Left out

- Telegram access is not modelled: the Telethon client, authorization, 2FA
  prompts, `GetHistoryRequest` and `get_channel_entity`. A channel is resolved
  by a `Provider` function, history pages are an input, and client readiness is
  a boolean.
- The crawl4ai/LLM crawl in `extract_summary_from_link` is an input function
  from (url, attempt) to returned data or an exception. Its own `{"error": ...}`
  answers are among the data it may return. Being a function, it answers the
  same url and attempt the same way every time, and a `Provider` gives the same
  pages for a channel each time; the live services need not. The link lemmas
  rely on this: a link that occurs twice and is not cached gets the summary of
  the same first attempt both times.
- `time.sleep` is not modelled. The backoff is the recorded sequence of delays,
  as `real`.
- The TON explorer HTTP request is an input value, `ChainAnswer`. Amounts are
  integer nanotons, so the float comparison `abs(a - b) < 0.01` becomes a
  comparison within 10,000,000 nanotons, and `/1e9` disappears.
- SQLite, the schema script, `CURRENT_TIMESTAMP` and `created_at` defaults are
  not modelled. Tables are maps, or a sequence of rows for `sources`.
- `datetime.now()` is the parameter `now` in seconds. `uuid4()` is the
  `paymentId` parameter, and `CreatePaymentRequest` requires it to be fresh.
- `user_subscriptions` has at most one row per user. It is keyed by user id, as
  the code's per-user SELECT/UPDATE assumes.
- `sources` has unique ids (its primary key).
  `SourceTypes.SourceTable.UpdateExistingSources` requires this, because the
  UPDATE is by id.
- Exception paths other than those modelled are left out:
  - the error dicts of `check_payment_status` and `check_user_subscription`
    (database failures);
  - `int()` parse failures of chain values;
  - `fromisoformat` errors;
  - the catch-all of `fetch_channel_messages_since` and
    `fetch_telegram_messages`.
- A raised `ValueError` is modelled as the result `InvalidTier`.
- In `create_subscription`, a tier missing from the table reports `false`
  instead of raising.
- `create_payment_request`'s `telegram_username` parameter is accepted and
  unused, as in the code.
- Logging, `format_json`, LiteLLM debug mode and the instruction templates are
  left out.
- Python dict iteration order is not modelled: the tier table is an ordered
  sequence, and result maps have no order.
- Values.Lower: folds ASCII letters only. Python's `str.lower` also lowercases
  other scripts, which can matter for the keyword tests of `DataSummarizer.About`.
- `DataFetcher.FetchAll`: its own contract states only the keys. The values and
  the cache are stated by `DataFetcher.FetchAllShape` and
  `DataFetcher.FetchedCachedLink`.
- `DataFetcher.EnrichAll`: its own contract states only the length. The
  messages and the cache are stated by `DataFetcher.EnrichAllShape`.
- The `"Failed to extract content"` branch of the link loop is modelled but
  unreachable, because `extract_summary` always returns a dict with `content`.
- Float JSON values and floating-point tier prices are not modelled.
- `DataSummarizer.ProcessAndAggregateNews`: its input is a typed history, each
  message with an integer `internal_id` and a string `text`. The code takes the
  request's raw JSON. A message missing either key (`KeyError`) or whose `text`
  is not a string (`AttributeError` on `.lower()`) makes the whole request fail,
  and that failure is not modelled. Neither is an `internal_id` of another JSON
  type, which the code would file as it is.
- `app.py`, `telegram_bot.py` and the admin and exploration scripts are not
  part of this model.

=== FILE: data_fetcher.dfy ===
/**
 * Message fetching and enrichment for chat channels: links taken from a
 * message's entities, the backward paging loop that collects the messages
 * newer than a boundary date, the normalisation of `https://t.me/...`
 * identifiers, and the filling of each message's link summaries from the
 * summary cache or the extractor.
 *
 * The provider is an input: `pages[k]` is its answer to the k-th history
 * request, and a request past the end of `pages` gets an empty page.
 */
module DataFetcher {
  import opened Values
  import opened Parser

  /** Messages asked for per history request. */
  const MessagesLimit: nat := 100
  /** The fetch window, in seconds: messages of the last 24 hours. */
  const OneDay: int := 24 * 60 * 60
  /** The prefix that marks a channel link rather than a handle. */
  const ChannelLinkPrefix: string := "https://t.me/"
  const FailedMarker: string := "Failed to extract content"

  /** A message entity; `url` is present only for text-url entities. */
  datatype Entity = Entity(offset: int, length: int, url: Option<string>)

  /** A message as the provider returns it; a message without a date has `date == None`. */
  datatype RawMessage = RawMessage(id: int, date: Option<int>, text: string, entities: seq<Entity>)

  /** The serialized message dictionary. */
  datatype MessageData = MessageData(
    internalId: Option<int>,
    telegramId: int,
    channelUrl: string,
    date: Option<int>,
    text: string,
    links: seq<string>,
    linkSummaries: map<string, Json>)

  // ---------------------------------------------------------------------------
  // extract_links_from_entities
  // ---------------------------------------------------------------------------

  /** The end a Python slice `s[start:stop]` actually uses. */
  function SliceEnd(n: nat, stop: int): (e: nat)
    ensures e <= n
  {
    if stop < 0 then (if n + stop < 0 then 0 else n + stop)
    else if stop > n then n
    else stop
  }

  /** `text[start:stop]` for a start inside the text. */
  function PySlice(text: string, start: nat, stop: int): (r: string)
    requires start < |text|
    ensures OccursAt(text, r, start)
    ensures |r| == if SliceEnd(|text|, stop) <= start then 0 else SliceEnd(|text|, stop) - start
  {
    var e := SliceEnd(|text|, stop);
    if e <= start then "" else text[start..e]
  }

  predicate IsWebLink(u: string) {
    StartsWith(u, "http://") || StartsWith(u, "https://")
  }

  /** What one entity contributes to the message's links. */
  function EntityLink(text: string, e: Entity): (r: Option<string>)
    // an entity with a url contributes exactly that url
    ensures e.url.Some? ==> r == e.url
    // otherwise only a web link found in the text at the entity's offset
    ensures e.url.None? && r.Some? ==>
      0 <= e.offset < |text| && IsWebLink(r.value) && OccursAt(text, r.value, e.offset)
    ensures e.url.None? && 0 <= e.offset < |text| && 0 <= e.length && e.offset + e.length <= |text|
            && IsWebLink(text[e.offset..e.offset + e.length]) ==>
      r == Some(text[e.offset..e.offset + e.length])
    // a span running past the end of the text is cut at the end
    ensures e.url.None? && 0 <= e.offset < |text| && e.offset + e.length > |text| ==>
      r == if IsWebLink(text[e.offset..]) then Some(text[e.offset..]) else None
    // an in-range span that is not a web link contributes nothing
    ensures (e.url.None? && 0 <= e.offset < |text| && 0 <= e.length && e.offset + e.length <= |text|
             && !IsWebLink(text[e.offset..e.offset + e.length])) ==> r.None?
    ensures e.url.None? && !(0 <= e.offset < |text|) ==> r.None?
  {
    if e.url.Some? then e.url
    else if 0 <= e.offset < |text| then
      var u := PySlice(text, e.offset, e.offset + e.length);
      assert e.offset + e.length > |text| ==> u == text[e.offset..];
      if IsWebLink(u) then Some(u) else None
    else None
  }

  /** The links of a message, in entity order. */
  function LinksOf(text: string, entities: seq<Entity>): seq<string>
    decreases |entities|
  {
    if entities == [] then []
    else
      var last := EntityLink(text, entities[|entities| - 1]);
      LinksOf(text, entities[..|entities| - 1]) + (if last.Some? then [last.value] else [])
  }

  /** There are never more links than entities, and each link comes from one of the entities. */
  lemma {:induction false} LinksOfBounded(text: string, entities: seq<Entity>)
    ensures |LinksOf(text, entities)| <= |entities|
    ensures forall l :: l in LinksOf(text, entities) ==> exists e :: e in entities && EntityLink(text, e) == Some(l)
    decreases |entities|
  {
    if entities != [] {
      var init := entities[..|entities| - 1];
      LinksOfBounded(text, init);
      assert forall e :: e in init ==> e in entities;
    }
  }

  /** When every entity carries a url, the links are exactly those urls, in order. */
  lemma {:induction false} LinksOfUrlEntities(text: string, entities: seq<Entity>)
    requires forall i :: 0 <= i < |entities| ==> entities[i].url.Some?
    ensures |LinksOf(text, entities)| == |entities|
    ensures forall i :: 0 <= i < |entities| ==> LinksOf(text, entities)[i] == entities[i].url.value
    decreases |entities|
  {
    if entities != [] {
      LinksOfUrlEntities(text, entities[..|entities| - 1]);
    }
  }

  method ExtractLinks(text: string, entities: seq<Entity>) returns (links: seq<string>)
    ensures links == LinksOf(text, entities)
  {
    links := [];
    for i := 0 to |entities|
      invariant links == LinksOf(text, entities[..i])
    {
      var e := entities[i];
      if e.url.Some? {
        links := links + [e.url.value];
      } else if 0 <= e.offset < |text| {
        var u := PySlice(text, e.offset, e.offset + e.length);
        if IsWebLink(u) {
          links := links + [u];
        }
      }
      assert entities[..i + 1][..i] == entities[..i];
    }
    assert entities[..|entities|] == entities;
  }

  // ---------------------------------------------------------------------------
  // serialize_message
  // ---------------------------------------------------------------------------

  /** The serialized form of a fetched message: not yet stored, and with no link summaries. */
  function Serialize(m: RawMessage, channelUrl: string): (d: MessageData)
    ensures d.internalId == None && d.linkSummaries == map[]
    ensures d.telegramId == m.id && d.channelUrl == channelUrl && d.date == m.date && d.text == m.text
    ensures |d.links| <= |m.entities|
  {
    LinksOfBounded(m.text, m.entities);
    MessageData(None, m.id, channelUrl, m.date, m.text, LinksOf(m.text, m.entities), map[])
  }

  method SerializeMessage(m: RawMessage, channelUrl: string) returns (d: MessageData)
    ensures d == Serialize(m, channelUrl)
  {
    var links := ExtractLinks(m.text, m.entities);
    d := MessageData(None, m.id, channelUrl, m.date, m.text, links, map[]);
  }

  function SerializeAll(ms: seq<RawMessage>, channelUrl: string): (ds: seq<MessageData>)
    ensures |ds| == |ms|
    ensures forall i :: 0 <= i < |ms| ==> ds[i] == Serialize(ms[i], channelUrl)
  {
    if ms == [] then [] else [Serialize(ms[0], channelUrl)] + SerializeAll(ms[1..], channelUrl)
  }

  lemma {:induction false} SerializeAllAppend(a: seq<RawMessage>, b: seq<RawMessage>, channelUrl: string)
    ensures SerializeAll(a + b, channelUrl) == SerializeAll(a, channelUrl) + SerializeAll(b, channelUrl)
    decreases |a|
  {
    if a == [] {
      assert a + b == b;
    } else {
      assert (a + b)[1..] == a[1..] + b;
      SerializeAllAppend(a[1..], b, channelUrl);
    }
  }

  // ---------------------------------------------------------------------------
  // fetch_channel_messages_since
  // ---------------------------------------------------------------------------

  /** The provider's answer to the k-th request. */
  function PageAt(pages: seq<seq<RawMessage>>, k: nat): (page: seq<RawMessage>)
    ensures page != [] ==> k < |pages|
  {
    if k < |pages| then pages[k] else []
  }

  predicate Newer(m: RawMessage, since: int) {
    m.date.Some? && m.date.value > since
  }

  predicate AtOrBefore(m: RawMessage, since: int) {
    m.date.Some? && m.date.value <= since
  }

  /** The scan of one page: the messages collected, and whether a message at or before the boundary was met. */
  function ScanPage(page: seq<RawMessage>, since: int): (seq<RawMessage>, bool) {
    if page == [] then ([], false)
    else if Newer(page[0], since) then
      var rest := ScanPage(page[1..], since);
      ([page[0]] + rest.0, rest.1)
    else if AtOrBefore(page[0], since) then ([], true)
    else ScanPage(page[1..], since)
  }

  /** The messages collected from request k on. */
  function FetchFrom(pages: seq<seq<RawMessage>>, k: nat, since: int): seq<RawMessage>
    decreases |pages| - k
  {
    var page := PageAt(pages, k);
    if page == [] then []
    else
      var scan := ScanPage(page, since);
      if scan.1 || |page| < MessagesLimit then scan.0
      else scan.0 + FetchFrom(pages, k + 1, since)
  }

  /** The `offset_id` of every request made from request k on, the first one being `offsetId`. */
  function OffsetsFrom(pages: seq<seq<RawMessage>>, k: nat, since: int, offsetId: int): seq<int>
    decreases |pages| - k
  {
    var page := PageAt(pages, k);
    if page == [] || ScanPage(page, since).1 || |page| < MessagesLimit then [offsetId]
    else [offsetId] + OffsetsFrom(pages, k + 1, since, page[|page| - 1].id)
  }

  /**
   * The scan of one page by the paging loop: newer messages are appended to
   * `all`; `stopped` reports a message at or before the boundary, at which the
   * scan ends.
   */
  method CollectFromPage(page: seq<RawMessage>, since: int, channelUrl: string, all: seq<MessageData>)
    returns (all': seq<MessageData>, stopped: bool)
    ensures all' == all + SerializeAll(ScanPage(page, since).0, channelUrl)
    ensures stopped == ScanPage(page, since).1
  {
    all', stopped := all, false;
    var i := 0;
    while i < |page|
      invariant 0 <= i <= |page|
      invariant all' + SerializeAll(ScanPage(page[i..], since).0, channelUrl)
                == all + SerializeAll(ScanPage(page, since).0, channelUrl)
      invariant ScanPage(page[i..], since).1 == ScanPage(page, since).1
    {
      var m := page[i];
      assert page[i..][1..] == page[i + 1..];
      if m.date.Some? && m.date.value > since {
        var d := SerializeMessage(m, channelUrl);
        all' := all' + [d];
      } else if m.date.Some? && m.date.value <= since {
        stopped := true;
        return;
      }
      i := i + 1;
    }
  }

  /** One request of the paging loop: what it collects and whether the loop goes on. */
  lemma FetchFromStep(pages: seq<seq<RawMessage>>, k: nat, since: int, offsetId: int)
    requires PageAt(pages, k) != []
    ensures var page := PageAt(pages, k);
      var scan := ScanPage(page, since);
      if scan.1 || |page| < MessagesLimit then
        FetchFrom(pages, k, since) == scan.0 && OffsetsFrom(pages, k, since, offsetId) == [offsetId]
      else
        && FetchFrom(pages, k, since) == scan.0 + FetchFrom(pages, k + 1, since)
        && OffsetsFrom(pages, k, since, offsetId) == [offsetId] + OffsetsFrom(pages, k + 1, since, page[|page| - 1].id)
  {
  }

  /**
   * Offset `i` (from 1 on) of a run starting at request `k` is the id of the
   * last message of the page before: a full page read without meeting the
   * boundary.
   */
  predicate FollowsFullPage(pages: seq<seq<RawMessage>>, k: nat, since: int, offs: seq<int>, i: nat)
    requires 1 <= i < |offs|
  {
    var page := PageAt(pages, k + i - 1);
    page != [] && |page| >= MessagesLimit && !ScanPage(page, since).1
    && offs[i] == page[|page| - 1].id
  }

  /**
   * The offsets sent: the first is the one the loop starts from, and each
   * later one follows a full page read without meeting the boundary.
   */
  lemma {:induction false} OffsetsFromPages(pages: seq<seq<RawMessage>>, k: nat, since: int, offsetId: int)
    ensures |OffsetsFrom(pages, k, since, offsetId)| >= 1
    ensures OffsetsFrom(pages, k, since, offsetId)[0] == offsetId
    ensures forall i :: 1 <= i < |OffsetsFrom(pages, k, since, offsetId)| ==>
              FollowsFullPage(pages, k, since, OffsetsFrom(pages, k, since, offsetId), i)
    decreases |pages| - k
  {
    var page := PageAt(pages, k);
    if !(page == [] || ScanPage(page, since).1 || |page| < MessagesLimit) {
      var next := page[|page| - 1].id;
      OffsetsFromPages(pages, k + 1, since, next);
      var rest := OffsetsFrom(pages, k + 1, since, next);
      var offs := OffsetsFrom(pages, k, since, offsetId);
      assert offs == [offsetId] + rest;
      forall i | 1 <= i < |offs|
        ensures FollowsFullPage(pages, k, since, offs, i)
      {
        if i > 1 {
          assert FollowsFullPage(pages, k + 1, since, rest, i - 1);
          assert (k + 1) + (i - 1) - 1 == k + i - 1;
        }
      }
    }
  }

  /** What one request adds to the messages collected. */
  lemma CollectedStep(pages: seq<seq<RawMessage>>, k: nat, since: int, channelUrl: string,
                      all: seq<MessageData>, all': seq<MessageData>)
    requires PageAt(pages, k) != []
    requires all' == all + SerializeAll(ScanPage(PageAt(pages, k), since).0, channelUrl)
    ensures var page := PageAt(pages, k);
      if ScanPage(page, since).1 || |page| < MessagesLimit then
        all' == all + SerializeAll(FetchFrom(pages, k, since), channelUrl)
      else
        all' + SerializeAll(FetchFrom(pages, k + 1, since), channelUrl)
        == all + SerializeAll(FetchFrom(pages, k, since), channelUrl)
  {
    var page := PageAt(pages, k);
    FetchFromStep(pages, k, since, 0);
    if !(ScanPage(page, since).1 || |page| < MessagesLimit) {
      var scanned, rest := ScanPage(page, since).0, FetchFrom(pages, k + 1, since);
      SerializeAllAppend(scanned, rest, channelUrl);
      AppendAssociative(all, SerializeAll(scanned, channelUrl), SerializeAll(rest, channelUrl));
    }
  }

  lemma AppendAssociative<T>(a: seq<T>, b: seq<T>, c: seq<T>)
    ensures (a + b) + c == a + (b + c)
  {
  }

  /**
   * The k-th request of the paging loop, made with `offsetId`: it records the
   * request, collects from the answer, and tells whether another request follows.
   */
  method RequestPage(pages: seq<seq<RawMessage>>, k: nat, since: int, channelUrl: string,
                     all: seq<MessageData>, offsets: seq<int>, offsetId: int)
    returns (all': seq<MessageData>, offsets': seq<int>, offsetId': int, more: bool)
    ensures more ==> k < |pages|
    ensures more ==>
      && all' + SerializeAll(FetchFrom(pages, k + 1, since), channelUrl)
         == all + SerializeAll(FetchFrom(pages, k, since), channelUrl)
      && offsets' + OffsetsFrom(pages, k + 1, since, offsetId')
         == offsets + OffsetsFrom(pages, k, since, offsetId)
    ensures !more ==>
      && all' == all + SerializeAll(FetchFrom(pages, k, since), channelUrl)
      && offsets' == offsets + OffsetsFrom(pages, k, since, offsetId)
  {
    var page := PageAt(pages, k);
    offsets' := offsets + [offsetId];
    offsetId' := offsetId;
    if page == [] {
      all', more := all, false;
      return;
    }
    FetchFromStep(pages, k, since, offsetId);
    var stopped;
    all', stopped := CollectFromPage(page, since, channelUrl, all);
    CollectedStep(pages, k, since, channelUrl, all, all');
    if stopped {
      more := false;
      return;
    }
    offsetId' := page[|page| - 1].id;
    if |page| < MessagesLimit {
      more := false;
      return;
    }
    more := true;
  }

  method FetchChannelMessagesSince(pages: seq<seq<RawMessage>>, since: int, channelUrl: string)
    returns (msgs: seq<MessageData>, offsets: seq<int>)
    ensures msgs == SerializeAll(FetchFrom(pages, 0, since), channelUrl)
    ensures offsets == OffsetsFrom(pages, 0, since, 0)
  {
    ghost var collected := SerializeAll(FetchFrom(pages, 0, since), channelUrl);
    ghost var requests := OffsetsFrom(pages, 0, since, 0);
    var all: seq<MessageData> := [];
    var offsetId := 0;
    var k: nat := 0;
    var more := true;
    offsets := [];
    while more
      invariant more ==> k <= |pages|
      invariant more ==> all + SerializeAll(FetchFrom(pages, k, since), channelUrl) == collected
      invariant more ==> offsets + OffsetsFrom(pages, k, since, offsetId) == requests
      invariant !more ==> all == collected && offsets == requests
      decreases more, |pages| - k
    {
      all, offsets, offsetId, more := RequestPage(pages, k, since, channelUrl, all, offsets, offsetId);
      if more {
        k := k + 1;
      }
    }
    msgs := all;
  }

  // A reference definition of what is collected: the messages of the pages
  // read, up to the first one at or before the boundary, keeping the newer ones.

  /** The pages read when no boundary is met: up to an empty page, or through a short page. */
  function Consumed(pages: seq<seq<RawMessage>>, k: nat): seq<seq<RawMessage>>
    decreases |pages| - k
  {
    var page := PageAt(pages, k);
    if page == [] then []
    else if |page| < MessagesLimit then [page]
    else [page] + Consumed(pages, k + 1)
  }

  function Flatten(ps: seq<seq<RawMessage>>): seq<RawMessage> {
    if ps == [] then [] else ps[0] + Flatten(ps[1..])
  }

  predicate HasBoundary(ms: seq<RawMessage>, since: int) {
    exists i :: 0 <= i < |ms| && AtOrBefore(ms[i], since)
  }

  /** The messages before the first one dated at or before the boundary. */
  function UntilBoundary(ms: seq<RawMessage>, since: int): (r: seq<RawMessage>)
    ensures |r| <= |ms| && r == ms[..|r|]
    ensures forall i :: 0 <= i < |r| ==> !AtOrBefore(r[i], since)
    ensures |r| < |ms| ==> AtOrBefore(ms[|r|], since)
  {
    if ms == [] || AtOrBefore(ms[0], since) then []
    else [ms[0]] + UntilBoundary(ms[1..], since)
  }

  /** The messages dated strictly after the boundary, in order. */
  function NewerOnly(ms: seq<RawMessage>, since: int): (r: seq<RawMessage>)
    ensures |r| <= |ms|
  {
    if ms == [] then []
    else
      var rest := NewerOnly(ms[1..], since);
      if Newer(ms[0], since) then [ms[0]] + rest else rest
  }

  /** NewerOnly keeps exactly the messages dated after the boundary. */
  lemma {:induction false} NewerOnlyMembers(ms: seq<RawMessage>, since: int)
    ensures forall m :: m in NewerOnly(ms, since) <==> m in ms && Newer(m, since)
    decreases |ms|
  {
    if ms != [] {
      NewerOnlyMembers(ms[1..], since);
      assert forall m :: m in ms <==> m == ms[0] || m in ms[1..];
    }
  }

  lemma {:induction false} NewerOnlyAppend(a: seq<RawMessage>, b: seq<RawMessage>, since: int)
    ensures NewerOnly(a + b, since) == NewerOnly(a, since) + NewerOnly(b, since)
    decreases |a|
  {
    if a != [] {
      assert (a + b)[0] == a[0];
      assert (a + b)[1..] == a[1..] + b;
      NewerOnlyAppend(a[1..], b, since);
      if Newer(a[0], since) {
        AppendAssociative([a[0]], NewerOnly(a[1..], since), NewerOnly(b, since));
      }
    } else {
      assert a + b == b;
    }
  }

  lemma {:induction false} UntilBoundaryAppend(a: seq<RawMessage>, b: seq<RawMessage>, since: int)
    ensures UntilBoundary(a + b, since) == if HasBoundary(a, since) then UntilBoundary(a, since) else a + UntilBoundary(b, since)
    decreases |a|
  {
    if a == [] {
      assert a + b == b;
    } else if AtOrBefore(a[0], since) {
      assert (a + b)[0] == a[0];
    } else {
      assert (a + b)[1..] == a[1..] + b;
      UntilBoundaryAppend(a[1..], b, since);
      assert HasBoundary(a, since) == HasBoundary(a[1..], since) by {
        if HasBoundary(a, since) {
          var i :| 0 <= i < |a| && AtOrBefore(a[i], since);
          assert a[1..][i - 1] == a[i];
        }
        if HasBoundary(a[1..], since) {
          var i :| 0 <= i < |a[1..]| && AtOrBefore(a[1..][i], since);
          assert a[i + 1] == a[1..][i];
        }
      }
    }
  }

  /** Scanning a page collects its newer messages before the first boundary message, and stops exactly when there is one. */
  lemma {:induction false} ScanPageReference(page: seq<RawMessage>, since: int)
    ensures ScanPage(page, since).0 == NewerOnly(UntilBoundary(page, since), since)
    ensures ScanPage(page, since).1 == HasBoundary(page, since)
    decreases |page|
  {
    if page != [] {
      ScanPageReference(page[1..], since);
      if AtOrBefore(page[0], since) {
        assert HasBoundary(page, since);
      } else {
        assert HasBoundary(page, since) == HasBoundary(page[1..], since) by {
          if HasBoundary(page, since) {
            var i :| 0 <= i < |page| && AtOrBefore(page[i], since);
            assert page[1..][i - 1] == page[i];
          }
          if HasBoundary(page[1..], since) {
            var i :| 0 <= i < |page[1..]| && AtOrBefore(page[1..][i], since);
            assert page[i + 1] == page[1..][i];
          }
        }
      }
    }
  }

  /**
   * The paging loop collects exactly the messages dated after the boundary,
   * in provider order, among the messages of the pages read up to the first
   * message dated at or before the boundary.
   */
  lemma {:induction false} FetchFromReference(pages: seq<seq<RawMessage>>, k: nat, since: int)
    ensures FetchFrom(pages, k, since) == NewerOnly(UntilBoundary(Flatten(Consumed(pages, k)), since), since)
    decreases |pages| - k
  {
    var page := PageAt(pages, k);
    if page != [] {
      ScanPageReference(page, since);
      if |page| < MessagesLimit {
        assert Flatten(Consumed(pages, k)) == page + Flatten([]);
        assert page + [] == page;
      } else {
        var rest := Flatten(Consumed(pages, k + 1));
        assert Consumed(pages, k) == [page] + Consumed(pages, k + 1);
        assert Flatten(Consumed(pages, k)) == page + rest by {
          assert ([page] + Consumed(pages, k + 1))[1..] == Consumed(pages, k + 1);
        }
        UntilBoundaryAppend(page, rest, since);
        if !HasBoundary(page, since) {
          FetchFromReference(pages, k + 1, since);
          UntilBoundaryAppend(page, [], since);
          assert page + [] == page;
          NewerOnlyAppend(page, UntilBoundary(rest, since), since);
        }
      }
    }
  }

  // ---------------------------------------------------------------------------
  // Identifier normalisation
  // ---------------------------------------------------------------------------

  function CountChar(s: string, c: char): nat {
    if s == [] then 0 else (if s[0] == c then 1 else 0) + CountChar(s[1..], c)
  }

  lemma {:induction false} CountCharPrefix(s: string, c: char, n: nat)
    requires n <= |s|
    ensures CountChar(s[..n], c) <= CountChar(s, c)
    decreases n
  {
    if n > 0 {
      assert s[..n][1..] == s[1..][..n - 1];
      CountCharPrefix(s[1..], c, n - 1);
    }
  }

  /** `s.split(sep)`: one more part than there are separators, the last being the text after the last separator. */
  function Split(s: string, sep: char): (parts: seq<string>)
    ensures |parts| == CountChar(s, sep) + 1
    ensures var last := parts[|parts| - 1];
      && |last| <= |s| && last == s[|s| - |last|..]
      && sep !in last
      && (|parts| == 1 ==> last == s)
      && (|parts| > 1 ==> |last| < |s| && s[|s| - |last| - 1] == sep)
  {
    if s == [] then [""]
    else
      var rest := Split(s[1..], sep);
      if s[0] == sep then [""] + rest
      else [[s[0]] + rest[0]] + rest[1..]
  }

  /** The handle taken from the '/'-separated parts of a channel link. */
  function HandleFromParts(parts: seq<string>, identifier: string): string {
    if |parts| > 3 then parts[|parts| - 1]
    else if |parts| == 3 && parts[2] != "" then parts[2]
    else identifier
  }

  /** A channel link has at least three '/' (those of its prefix), so it splits into more than three parts. */
  lemma LinkSplitsInFour(identifier: string)
    requires StartsWith(identifier, ChannelLinkPrefix)
    ensures |Split(identifier, '/')| > 3
  {
    assert CountChar(ChannelLinkPrefix, '/') == 3;
    assert identifier[..|ChannelLinkPrefix|] == ChannelLinkPrefix;
    CountCharPrefix(identifier, '/', |ChannelLinkPrefix|);
  }

  /** The handle used to resolve a channel identifier. */
  function NormalizeIdentifier(identifier: string): (handle: string)
    // a handle is used unchanged
    ensures !StartsWith(identifier, ChannelLinkPrefix) ==> handle == identifier
    // a link is replaced by its last '/'-separated segment
    ensures StartsWith(identifier, ChannelLinkPrefix) ==>
      && '/' !in handle
      && |handle| < |identifier| && handle == identifier[|identifier| - |handle|..]
      && identifier[|identifier| - |handle| - 1] == '/'
  {
    if StartsWith(identifier, ChannelLinkPrefix) then
      LinkSplitsInFour(identifier);
      HandleFromParts(Split(identifier, '/'), identifier)
    else identifier
  }

  // ---------------------------------------------------------------------------
  // Link-summary filling
  // ---------------------------------------------------------------------------

  /** The dict returned by `extract_summary`. */
  function ResultDict(p: Processed): map<string, Json> {
    map["success" := JInt(if p.success then 1 else 0), "content" := p.content]
  }

  function TypeName(v: Json): string {
    match v
    case JNull => "NoneType"
    case JBool(_) => "bool"
    case JInt(_) => "int"
    case JStr(_) => "str"
    case JList(_) => "list"
    case JObject(_) => "dict"
  }

  /** The marker recorded when taking the length of the extracted content raises. */
  function LenErrorMarker(v: Json): string {
    "Error: object of type '" + TypeName(v) + "' has no len()"
  }

  /**
   * The summary recorded for one link, and the cache afterwards: a truthy
   * cached summary; otherwise the extracted content (the error marker when its
   * length cannot be taken). The cache only gains entries.
   */
  function SummarizeLink(entries: map<string, Json>, link: string, crawl: (string, nat) -> CrawlOutcome)
    : (r: (Json, map<string, Json>))
    ensures link in entries && Truthy(entries[link]) ==> r == (entries[link], entries)
    ensures !(link in entries && Truthy(entries[link])) ==>
      var extracted := ExtractOnce(entries, link, crawl(link, 0));
      && r.1 == extracted.1
      && r.0 == if Sized(extracted.0.content) then extracted.0.content else JStr(LenErrorMarker(extracted.0.content))
    ensures forall k :: k in entries ==> k in r.1 && r.1[k] == entries[k]
    ensures r.1.Keys <= entries.Keys + {link}
  {
    if link in entries && Truthy(entries[link]) then (entries[link], entries)
    else
      var extracted := ExtractOnce(entries, link, crawl(link, 0));
      var summary := ResultDict(extracted.0);
      if "content" in summary then
        if Sized(summary["content"]) then (summary["content"], extracted.1)
        else (JStr(LenErrorMarker(summary["content"])), extracted.1)
      else (JStr(FailedMarker), extracted.1)
  }

  /**
   * When the extraction raises (as `asyncio.run` does when it is called from
   * a running event loop), an uncached link is recorded with an empty summary
   * and the cache is left as it was.
   */
  lemma RaisingExtraction(entries: map<string, Json>, link: string, crawl: (string, nat) -> CrawlOutcome)
    requires link !in entries && crawl(link, 0) == Raised
    ensures SummarizeLink(entries, link, crawl) == (JStr(""), entries)
  {
  }

  /** Cache c2 keeps every entry of cache c1. */
  predicate Keeps(c1: map<string, Json>, c2: map<string, Json>) {
    forall k :: k in c1 ==> k in c2 && c2[k] == c1[k]
  }

  lemma KeepsTransitive(c1: map<string, Json>, c2: map<string, Json>, c3: map<string, Json>)
    requires Keeps(c1, c2) && Keeps(c2, c3)
    ensures Keeps(c1, c3)
  {
  }

  /**
   * Cache `c` is `entries` grown by the link loop: every original entry is
   * kept, and every entry added is the truthy summary `SummarizeLink`
   * records for that link on `entries`.
   */
  predicate GrownFrom(entries: map<string, Json>, c: map<string, Json>, crawl: (string, nat) -> CrawlOutcome) {
    && Keeps(entries, c)
    && forall k :: k in c && k !in entries ==> Truthy(c[k]) && c[k] == SummarizeLink(entries, k, crawl).0
  }

  /**
   * On a grown cache a link gets the summary it gets on the original one,
   * and the cache stays grown: an entry is only ever added for the link
   * being processed, with an accepted content, which has a length.
   */
  lemma SummarizeOnGrown(entries: map<string, Json>, c: map<string, Json>, link: string,
                         crawl: (string, nat) -> CrawlOutcome)
    requires GrownFrom(entries, c, crawl)
    ensures SummarizeLink(c, link, crawl).0 == SummarizeLink(entries, link, crawl).0
    ensures GrownFrom(entries, SummarizeLink(c, link, crawl).1, crawl)
  {
    if link in entries {
      assert c[link] == entries[link];
      assert ExtractOnce(c, link, crawl(link, 0)).0 == ExtractOnce(entries, link, crawl(link, 0)).0;
    } else if link !in c {
      SummarizeUncached(entries, c, link, crawl);
    }
  }

  /** The case of `SummarizeOnGrown` where the link is in neither cache, and is extracted. */
  lemma SummarizeUncached(entries: map<string, Json>, c: map<string, Json>, link: string,
                          crawl: (string, nat) -> CrawlOutcome)
    requires GrownFrom(entries, c, crawl) && link !in c
    ensures SummarizeLink(c, link, crawl).0 == SummarizeLink(entries, link, crawl).0
    ensures GrownFrom(entries, SummarizeLink(c, link, crawl).1, crawl)
  {
    var x := crawl(link, 0);
    SuccessIsSized(x, link);
    var e := ExtractOnce(c, link, x);
    assert e.0 == ExtractOnce(entries, link, x).0 == AttemptOutcome(x, link).processed;
    var c' := SummarizeLink(c, link, crawl).1;
    assert c' == e.1;
    if e.1 != c {
      assert e.1 == c[link := e.0.content] && Accepted(e.0) && Sized(e.0.content);
      assert SummarizeLink(entries, link, crawl).0 == e.0.content;
    }
  }

  lemma GrownTransitive(entries: map<string, Json>, c1: map<string, Json>, c2: map<string, Json>,
                        crawl: (string, nat) -> CrawlOutcome)
    requires GrownFrom(entries, c1, crawl) && GrownFrom(c1, c2, crawl)
    ensures GrownFrom(entries, c2, crawl)
  {
    forall k | k in c2 && k !in entries && k !in c1
      ensures c2[k] == SummarizeLink(entries, k, crawl).0
    {
      SummarizeOnGrown(entries, c1, k, crawl);
    }
  }

  /** The link summaries and the cache after processing `links` in order. */
  function EnrichLinks(entries: map<string, Json>, summaries: map<string, Json>, links: seq<string>,
                       crawl: (string, nat) -> CrawlOutcome): (r: (map<string, Json>, map<string, Json>))
    decreases |links|
  {
    if links == [] then (summaries, entries)
    else
      var before := EnrichLinks(entries, summaries, links[..|links| - 1], crawl);
      var last := links[|links| - 1];
      var step := SummarizeLink(before.1, last, crawl);
      (before.0[last := step.0], step.1)
  }

  /**
   * Every link gets a summary, summaries of other keys are left alone, and
   * the cache keeps every entry.
   */
  lemma {:induction false} EnrichLinksShape(entries: map<string, Json>, summaries: map<string, Json>,
                                            links: seq<string>, crawl: (string, nat) -> CrawlOutcome)
    ensures var r := EnrichLinks(entries, summaries, links, crawl);
      && r.0.Keys == summaries.Keys + (set l | l in links)
      && (forall k :: k in summaries && k !in links ==> r.0[k] == summaries[k])
      && Keeps(entries, r.1)
    decreases |links|
  {
    if links != [] {
      var init := links[..|links| - 1];
      EnrichLinksShape(entries, summaries, init, crawl);
      assert forall l :: l in links <==> l in init || l == links[|links| - 1];
    }
  }

  /**
   * The summary each link ends up with is the one `SummarizeLink` records
   * for it on the original cache, and the cache is grown from the original.
   */
  lemma {:induction false} EnrichLinksValues(entries: map<string, Json>, summaries: map<string, Json>,
                                             links: seq<string>, crawl: (string, nat) -> CrawlOutcome)
    ensures var r := EnrichLinks(entries, summaries, links, crawl);
      && GrownFrom(entries, r.1, crawl)
      && forall l :: l in links ==> l in r.0 && r.0[l] == SummarizeLink(entries, l, crawl).0
    decreases |links|
  {
    if links != [] {
      var init := links[..|links| - 1];
      var last := links[|links| - 1];
      EnrichLinksValues(entries, summaries, init, crawl);
      var before := EnrichLinks(entries, summaries, init, crawl);
      SummarizeOnGrown(entries, before.1, last, crawl);
      var r := EnrichLinks(entries, summaries, links, crawl);
      forall l | l in links
        ensures l in r.0 && r.0[l] == SummarizeLink(entries, l, crawl).0
      {
        if l != last {
          assert l in init;
        }
      }
    }
  }

  /** A link with a truthy cached summary keeps that summary in the message. */
  lemma CachedLinkKept(entries: map<string, Json>, summaries: map<string, Json>, links: seq<string>,
                       crawl: (string, nat) -> CrawlOutcome, l: string)
    requires l in links && l in entries && Truthy(entries[l])
    ensures var r := EnrichLinks(entries, summaries, links, crawl);
      l in r.0 && r.0[l] == entries[l]
  {
    EnrichLinksValues(entries, summaries, links, crawl);
  }

  /** A message after enrichment, and the cache afterwards. */
  function EnrichMessageSpec(entries: map<string, Json>, m: MessageData, crawl: (string, nat) -> CrawlOutcome)
    : (MessageData, map<string, Json>)
  {
    var r := EnrichLinks(entries, m.linkSummaries, m.links, crawl);
    (m.(linkSummaries := r.0), r.1)
  }

  /** Messages after enrichment, one after the other, and the cache afterwards. */
  function EnrichAll(entries: map<string, Json>, ms: seq<MessageData>, crawl: (string, nat) -> CrawlOutcome)
    : (r: (seq<MessageData>, map<string, Json>))
    ensures |r.0| == |ms|
    decreases |ms|
  {
    if ms == [] then ([], entries)
    else
      var before := EnrichAll(entries, ms[..|ms| - 1], crawl);
      var last := EnrichMessageSpec(before.1, ms[|ms| - 1], crawl);
      (before.0 + [last.0], last.1)
  }

  /** `after` is `before` with only its link summaries replaced, now one per link on top of those it had. */
  predicate Enriched(before: MessageData, after: MessageData) {
    && after == before.(linkSummaries := after.linkSummaries)
    && after.linkSummaries.Keys == before.linkSummaries.Keys + (set l | l in before.links)
  }

  /** `Enriched`, and each link's summary is the one `SummarizeLink` records for it on `entries`. */
  predicate EnrichedFrom(entries: map<string, Json>, before: MessageData, after: MessageData,
                         crawl: (string, nat) -> CrawlOutcome) {
    && Enriched(before, after)
    && forall l :: l in before.links ==>
         l in after.linkSummaries && after.linkSummaries[l] == SummarizeLink(entries, l, crawl).0
  }

  /** Enrichment on a grown cache is enrichment on the original one. */
  lemma EnrichedFromEarlier(e1: map<string, Json>, e2: map<string, Json>, before: MessageData,
                            after: MessageData, crawl: (string, nat) -> CrawlOutcome)
    requires GrownFrom(e1, e2, crawl) && EnrichedFrom(e2, before, after, crawl)
    ensures EnrichedFrom(e1, before, after, crawl)
  {
    forall l | l in before.links
      ensures after.linkSummaries[l] == SummarizeLink(e1, l, crawl).0
    {
      SummarizeOnGrown(e1, e2, l, crawl);
    }
  }

  lemma EnrichMessageShape(entries: map<string, Json>, m: MessageData, crawl: (string, nat) -> CrawlOutcome)
    ensures EnrichedFrom(entries, m, EnrichMessageSpec(entries, m, crawl).0, crawl)
    ensures Keeps(entries, EnrichMessageSpec(entries, m, crawl).1)
    ensures GrownFrom(entries, EnrichMessageSpec(entries, m, crawl).1, crawl)
  {
    EnrichLinksShape(entries, m.linkSummaries, m.links, crawl);
    EnrichLinksValues(entries, m.linkSummaries, m.links, crawl);
  }

  /**
   * Enrichment changes nothing in a message but its link summaries, gives it
   * one summary per link on top of those it had, each the one `SummarizeLink`
   * records on the original cache, and keeps every cache entry.
   */
  lemma {:induction false} EnrichAllShape(entries: map<string, Json>, ms: seq<MessageData>,
                                          crawl: (string, nat) -> CrawlOutcome)
    ensures forall i :: 0 <= i < |ms| ==> EnrichedFrom(entries, ms[i], EnrichAll(entries, ms, crawl).0[i], crawl)
    ensures Keeps(entries, EnrichAll(entries, ms, crawl).1)
    ensures GrownFrom(entries, EnrichAll(entries, ms, crawl).1, crawl)
    decreases |ms|
  {
    if ms != [] {
      var init := ms[..|ms| - 1];
      EnrichAllShape(entries, init, crawl);
      var before := EnrichAll(entries, init, crawl);
      EnrichMessageShape(before.1, ms[|ms| - 1], crawl);
      var last := EnrichMessageSpec(before.1, ms[|ms| - 1], crawl);
      var r := EnrichAll(entries, ms, crawl);
      assert r.0 == before.0 + [last.0];
      forall i | 0 <= i < |ms|
        ensures EnrichedFrom(entries, ms[i], r.0[i], crawl)
      {
        if i < |init| {
          assert r.0[i] == before.0[i] && ms[i] == init[i];
        } else {
          EnrichedFromEarlier(entries, before.1, ms[i], last.0, crawl);
        }
      }
      GrownTransitive(entries, before.1, last.1, crawl);
    }
  }

  /** The summary recorded for one link of a message, through the cache. */
  method LinkSummary(cache: LinkCache, link: string, crawl: (string, nat) -> CrawlOutcome) returns (summary: Json)
    modifies cache
    ensures (summary, cache.entries) == SummarizeLink(old(cache.entries), link, crawl)
  {
    var cached := cache.Get(link);
    if cached.Some? && Truthy(cached.value) {
      summary := cached.value;
    } else {
      var result, attempts, sleeps := cache.ExtractSummary(link, false, crawl);
      var d := ResultDict(result);
      if "content" in d {
        if Sized(d["content"]) {
          summary := d["content"];
        } else {
          summary := JStr(LenErrorMarker(d["content"]));
        }
      } else {
        summary := JStr(FailedMarker);
      }
    }
  }

  method EnrichMessage(cache: LinkCache, m: MessageData, crawl: (string, nat) -> CrawlOutcome) returns (r: MessageData)
    modifies cache
    ensures (r, cache.entries) == EnrichMessageSpec(old(cache.entries), m, crawl)
  {
    var summaries := m.linkSummaries;
    for i := 0 to |m.links|
      invariant (summaries, cache.entries) == EnrichLinks(old(cache.entries), m.linkSummaries, m.links[..i], crawl)
    {
      assert m.links[..i + 1][..i] == m.links[..i];
      var summary := LinkSummary(cache, m.links[i], crawl);
      summaries := summaries[m.links[i] := summary];
    }
    assert m.links[..|m.links|] == m.links;
    r := m.(linkSummaries := summaries);
  }

  method EnrichMessages(cache: LinkCache, ms: seq<MessageData>, crawl: (string, nat) -> CrawlOutcome)
    returns (out: seq<MessageData>)
    modifies cache
    ensures (out, cache.entries) == EnrichAll(old(cache.entries), ms, crawl)
  {
    out := [];
    for i := 0 to |ms|
      invariant (out, cache.entries) == EnrichAll(old(cache.entries), ms[..i], crawl)
    {
      assert ms[..i + 1][..i] == ms[..i];
      var m := EnrichMessage(cache, ms[i], crawl);
      out := out + [m];
    }
    assert ms[..|ms|] == ms;
  }

  // ---------------------------------------------------------------------------
  // fetch_telegram_messages
  // ---------------------------------------------------------------------------

  /** Resolution of a handle: None when the channel cannot be resolved, else its history pages. */
  type Provider = string -> Option<seq<seq<RawMessage>>>

  /** The messages of one resolved channel before enrichment. */
  function ChannelMessages(pages: seq<seq<RawMessage>>, since: int, original: string): seq<MessageData> {
    SerializeAll(FetchFrom(pages, 0, since), original)
  }

  /**
   * The result map and the cache after processing `channels` in order. Every
   * identifier is a key; an unresolved one maps to the empty list; a resolved
   * one maps to its fetched messages, each with one summary per link.
   */
  function FetchAll(entries: map<string, Json>, channels: seq<string>, provider: Provider, since: int,
                    crawl: (string, nat) -> CrawlOutcome)
    : (r: (map<string, seq<MessageData>>, map<string, Json>))
    ensures r.0.Keys == set c | c in channels
    decreases |channels|
  {
    if channels == [] then (map[], entries)
    else
      var init := channels[..|channels| - 1];
      var c := channels[|channels| - 1];
      var before := FetchAll(entries, init, provider, since, crawl);
      assert forall x :: x in channels <==> x in init || x == c;
      match provider(NormalizeIdentifier(c))
      case None => (before.0[c := []], before.1)
      case Some(pages) =>
        var fetched := ChannelMessages(pages, since, c);
        var enriched := EnrichAll(before.1, fetched, crawl);
        (before.0[c := enriched.0], enriched.1)
  }

  /**
   * The enriched messages of one channel: one per fetched message, each
   * fetched with no summaries and enriched as `EnrichedFrom` says.
   */
  predicate ChannelEnriched(entries: map<string, Json>, fetched: seq<MessageData>, out: seq<MessageData>,
                            crawl: (string, nat) -> CrawlOutcome) {
    && |out| == |fetched|
    && forall i :: 0 <= i < |fetched| ==>
         fetched[i].linkSummaries == map[] && EnrichedFrom(entries, fetched[i], out[i], crawl)
  }

  /** Enriching one channel's fetched messages on a cache grown from `entries`. */
  lemma ChannelStep(entries: map<string, Json>, cache: map<string, Json>, fetched: seq<MessageData>,
                    crawl: (string, nat) -> CrawlOutcome)
    requires GrownFrom(entries, cache, crawl)
    requires forall i :: 0 <= i < |fetched| ==> fetched[i].linkSummaries == map[]
    ensures ChannelEnriched(entries, fetched, EnrichAll(cache, fetched, crawl).0, crawl)
    ensures GrownFrom(entries, EnrichAll(cache, fetched, crawl).1, crawl)
  {
    EnrichAllShape(cache, fetched, crawl);
    var enriched := EnrichAll(cache, fetched, crawl);
    forall i | 0 <= i < |fetched|
      ensures EnrichedFrom(entries, fetched[i], enriched.0[i], crawl)
    {
      EnrichedFromEarlier(entries, cache, fetched[i], enriched.0[i], crawl);
    }
    GrownTransitive(entries, cache, enriched.1, crawl);
  }

  /**
   * Every identifier is a key of the result; an unresolved one maps to the
   * empty list; a resolved one maps to its fetched messages, each with one
   * summary per link; the cache keeps every entry.
   */
  lemma {:induction false} FetchAllShape(entries: map<string, Json>, channels: seq<string>, provider: Provider,
                                         since: int, crawl: (string, nat) -> CrawlOutcome)
    ensures var r := FetchAll(entries, channels, provider, since, crawl);
      && (forall c :: c in channels && provider(NormalizeIdentifier(c)).None? ==> r.0[c] == [])
      && (forall c :: c in channels && provider(NormalizeIdentifier(c)).Some? ==>
           var fetched := ChannelMessages(provider(NormalizeIdentifier(c)).value, since, c);
           ChannelEnriched(entries, fetched, r.0[c], crawl))
      && Keeps(entries, r.1)
      && GrownFrom(entries, r.1, crawl)
    decreases |channels|
  {
    if channels != [] {
      var init := channels[..|channels| - 1];
      var c := channels[|channels| - 1];
      FetchAllShape(entries, init, provider, since, crawl);
      var before := FetchAll(entries, init, provider, since, crawl);
      assert forall x :: x in channels <==> x in init || x == c;
      match provider(NormalizeIdentifier(c))
      case None =>
      case Some(pages) =>
        ChannelStep(entries, before.1, ChannelMessages(pages, since, c), crawl);
    }
  }

  /**
   * In the fetched result, a link whose summary was already cached with a
   * truthy value carries that cached summary.
   */
  lemma FetchedCachedLink(entries: map<string, Json>, channels: seq<string>, provider: Provider, since: int,
                          crawl: (string, nat) -> CrawlOutcome, c: string, i: nat, l: string)
    requires c in channels && provider(NormalizeIdentifier(c)).Some?
    requires i < |ChannelMessages(provider(NormalizeIdentifier(c)).value, since, c)|
    requires l in ChannelMessages(provider(NormalizeIdentifier(c)).value, since, c)[i].links
    requires l in entries && Truthy(entries[l])
    ensures var r := FetchAll(entries, channels, provider, since, crawl);
      i < |r.0[c]| && l in r.0[c][i].linkSummaries && r.0[c][i].linkSummaries[l] == entries[l]
  {
    FetchAllShape(entries, channels, provider, since, crawl);
    var r := FetchAll(entries, channels, provider, since, crawl);
    var fetched := ChannelMessages(provider(NormalizeIdentifier(c)).value, since, c);
    assert EnrichedFrom(entries, fetched[i], r.0[c][i], crawl);
  }

  /**
   * `fetch_telegram_messages`: an empty result when the client is not
   * authorized and connected; otherwise the messages of the last day of every
   * channel, enriched with link summaries.
   */
  method FetchTelegramMessages(cache: LinkCache, channels: seq<string>, clientReady: bool, provider: Provider,
                               now: int, crawl: (string, nat) -> CrawlOutcome)
    returns (newsData: map<string, seq<MessageData>>)
    modifies cache
    ensures !clientReady ==> newsData == map[] && cache.entries == old(cache.entries)
    ensures clientReady ==> (newsData, cache.entries) == FetchAll(old(cache.entries), channels, provider, now - OneDay, crawl)
  {
    newsData := map[];
    if !clientReady {
      return;
    }
    var since := now - OneDay;
    for i := 0 to |channels|
      invariant (newsData, cache.entries) == FetchAll(old(cache.entries), channels[..i], provider, since, crawl)
    {
      assert channels[..i + 1][..i] == channels[..i];
      var original := channels[i];
      var handle := NormalizeIdentifier(original);
      var entity := provider(handle);
      if entity.Some? {
        var messages, offsets := FetchChannelMessagesSince(entity.value, since, original);
        messages := EnrichMessages(cache, messages, crawl);
        newsData := newsData[original := messages];
      } else {
        newsData := newsData[original := []];
      }
    }
    assert channels[..|channels|] == channels;
  }
}

=== FILE: data_summarizer.dfy ===
/**
 * Keyword bucketing of the message history (`process_and_aggregate_news`):
 * every message's internal id is filed under each of three fixed topics whose
 * keywords occur in its lower-cased text.
 */
module DataSummarizer {
  import opened Values

  /** The fields of a stored message that the bucketing reads. */
  datatype HistoryMessage = HistoryMessage(internalId: int, text: string)

  datatype Topic = DeFiLaunch | MarketAnalysis | Web3Development

  /** The key under which a topic appears in the result. */
  function TopicName(t: Topic): string {
    match t
    case DeFiLaunch => "DeFi Protocol Launch"
    case MarketAnalysis => "Market Analysis"
    case Web3Development => "Web3 Development"
  }

  /** The two phrases, either of which files a message under the topic. */
  function Keywords(t: Topic): (string, string) {
    match t
    case DeFiLaunch => ("defi protocol launch", "new defi")
    case MarketAnalysis => ("market analysis", "price prediction")
    case Web3Development => ("web3 development", "blockchain update")
  }

  predicate IsTopicName(k: string) {
    k == TopicName(DeFiLaunch) || k == TopicName(MarketAnalysis) || k == TopicName(Web3Development)
  }

  /** A message is about a topic when its lower-cased text contains one of the topic's phrases. */
  predicate About(text: string, t: Topic) {
    var lowered := Lower(text);
    Contains(lowered, Keywords(t).0) || Contains(lowered, Keywords(t).1)
  }

  /** The ids filed under topic `t`, in history order. */
  function TopicIds(history: seq<HistoryMessage>, t: Topic): seq<int>
    decreases |history|
  {
    if history == [] then []
    else
      var last := history[|history| - 1];
      TopicIds(history[..|history| - 1], t) + (if About(last.text, t) then [last.internalId] else [])
  }

  /** An id is filed under a topic exactly when some message with that id is about the topic. */
  lemma {:induction false} TopicIdsMembers(history: seq<HistoryMessage>, t: Topic, id: int)
    ensures id in TopicIds(history, t) <==>
            exists i :: 0 <= i < |history| && history[i].internalId == id && About(history[i].text, t)
    decreases |history|
  {
    if history != [] {
      var init := history[..|history| - 1];
      TopicIdsMembers(init, t, id);
      if id in TopicIds(history, t) && id !in TopicIds(init, t) {
        assert history[|history| - 1].internalId == id && About(history[|history| - 1].text, t);
      }
      if exists i :: 0 <= i < |history| && history[i].internalId == id && About(history[i].text, t) {
        var i :| 0 <= i < |history| && history[i].internalId == id && About(history[i].text, t);
        if i < |init| {
          assert init[i] == history[i];
        }
      }
    }
  }

  /** Bucketing a history in two parts files the ids of the first part before those of the second. */
  lemma {:induction false} TopicIdsAppend(a: seq<HistoryMessage>, b: seq<HistoryMessage>, t: Topic)
    ensures TopicIds(a + b, t) == TopicIds(a, t) + TopicIds(b, t)
    decreases |b|
  {
    if b == [] {
      assert a + b == a;
    } else {
      var init := b[..|b| - 1];
      assert (a + b)[..|a + b| - 1] == a + init;
      assert (a + b)[|a + b| - 1] == b[|b| - 1];
      TopicIdsAppend(a, init, t);
      var extra := if About(b[|b| - 1].text, t) then [b[|b| - 1].internalId] else [];
      assert (TopicIds(a, t) + TopicIds(init, t)) + extra == TopicIds(a, t) + (TopicIds(init, t) + extra);
    }
  }

  /** `topics` holds the bucket of topic `t` exactly when it is non-empty. */
  predicate FiledTopic(topics: map<string, seq<int>>, history: seq<HistoryMessage>, t: Topic) {
    && (TopicName(t) in topics <==> TopicIds(history, t) != [])
    && (TopicName(t) in topics ==> topics[TopicName(t)] == TopicIds(history, t))
  }

  /** `topics` holds exactly the non-empty buckets of `history`, keyed by topic name. */
  predicate Filed(topics: map<string, seq<int>>, history: seq<HistoryMessage>) {
    && (forall k :: k in topics ==> IsTopicName(k))
    && (forall t: Topic :: FiledTopic(topics, history, t))
  }

  lemma TopicNameInjective(t: Topic, u: Topic)
    ensures TopicName(t) == TopicName(u) ==> t == u
  {
    if t != u {
      assert |TopicName(t)| != |TopicName(u)|;
    }
  }

  /** `topics.setdefault(name, []).append(id)` */
  method FileUnder(topics: map<string, seq<int>>, name: string, id: int) returns (topics': map<string, seq<int>>)
    ensures topics'.Keys == topics.Keys + {name}
    ensures topics'[name] == (if name in topics then topics[name] else []) + [id]
    ensures forall k :: k in topics && k != name ==> topics'[k] == topics[k]
  {
    topics' := topics;
    if name !in topics' {
      topics' := topics'[name := []];
    }
    topics' := topics'[name := topics'[name] + [id]];
  }

  /** The bucket of topic `t` once message `m` is bucketed, the others being left alone. */
  method FileTopic(topics: map<string, seq<int>>, ghost history: seq<HistoryMessage>, m: HistoryMessage,
                   t: Topic, matched: bool)
    returns (topics': map<string, seq<int>>)
    requires matched == About(m.text, t)
    requires forall k :: k in topics ==> IsTopicName(k)
    requires FiledTopic(topics, history, t)
    ensures forall k :: k in topics' ==> IsTopicName(k)
    ensures FiledTopic(topics', history + [m], t)
    ensures forall u: Topic :: u != t ==>
      && (TopicName(u) in topics' <==> TopicName(u) in topics)
      && (TopicName(u) in topics ==> topics'[TopicName(u)] == topics[TopicName(u)])
  {
    assert (history + [m])[..|history|] == history;
    topics' := topics;
    if matched {
      topics' := FileUnder(topics, TopicName(t), m.internalId);
    }
    forall u: Topic | u != t
      ensures TopicName(u) != TopicName(t)
    {
      TopicNameInjective(u, t);
    }
  }

  /** One turn of the bucketing loop: the message's id is filed under every topic it is about. */
  method FileMessage(topics: map<string, seq<int>>, ghost history: seq<HistoryMessage>, m: HistoryMessage)
    returns (topics': map<string, seq<int>>)
    requires Filed(topics, history)
    ensures Filed(topics', history + [m])
  {
    var text := Lower(m.text);
    assert FiledTopic(topics, history, DeFiLaunch) && FiledTopic(topics, history, MarketAnalysis)
        && FiledTopic(topics, history, Web3Development);
    topics' := FileTopic(topics, history, m, DeFiLaunch,
                         Contains(text, "defi protocol launch") || Contains(text, "new defi"));
    topics' := FileTopic(topics', history, m, MarketAnalysis,
                         Contains(text, "market analysis") || Contains(text, "price prediction"));
    topics' := FileTopic(topics', history, m, Web3Development,
                         Contains(text, "web3 development") || Contains(text, "blockchain update"));
    forall t: Topic
      ensures FiledTopic(topics', history + [m], t)
    {
      match t
      case DeFiLaunch =>
      case MarketAnalysis =>
      case Web3Development =>
    }
  }

  /** Every bucket held is non-empty, and an empty history holds none. */
  lemma FiledBuckets(topics: map<string, seq<int>>, history: seq<HistoryMessage>)
    requires Filed(topics, history)
    ensures forall k :: k in topics ==> topics[k] != []
    ensures history == [] ==> topics == map[]
  {
    assert FiledTopic(topics, history, DeFiLaunch) && FiledTopic(topics, history, MarketAnalysis)
        && FiledTopic(topics, history, Web3Development);
    if history == [] {
      assert topics.Keys == {};
    }
  }

  /**
   * `process_and_aggregate_news`: a key per topic some message is about,
   * holding the ids of those messages in history order.
   */
  method ProcessAndAggregateNews(history: seq<HistoryMessage>) returns (topics: map<string, seq<int>>)
    ensures Filed(topics, history)
    ensures forall k :: k in topics ==> topics[k] != []
    ensures history == [] ==> topics == map[]
  {
    topics := map[];
    for i := 0 to |history|
      invariant Filed(topics, history[..i])
    {
      assert history[..i + 1] == history[..i] + [history[i]];
      topics := FileMessage(topics, history[..i], history[i]);
    }
    assert history[..|history|] == history;
    FiledBuckets(topics, history);
  }
}

=== FILE: parser.dfy ===
/**
 * Link-summary extraction: turning the extraction service's raw answer into
 * `{success, content}`, the url-keyed summary cache, and the cache-first
 * extraction with its optional bounded retry loop.
 */
module Parser {
  import opened Values

  /** Attempts made by `extract_summary` in retry mode. */
  const MaxAttempts: nat := 5
  /** The first delay, in seconds, and the factor applied after each failed non-final attempt. */
  const InitialBackoff: real := 1.0
  const BackoffFactor: real := 1.5

  /** The dictionary `{"success": 0 | 1, "content": ...}`; `success` is 1 exactly when the field is true. */
  datatype Processed = Processed(success: bool, content: Json)

  /** `{"success": 0, "content": ""}` */
  function Failure(): Processed {
    Processed(false, JStr(""))
  }

  /** A processed result and the url under which its content is upserted into the cache, if any. */
  datatype Outcome = Outcome(processed: Processed, saveTo: Option<string>)

  /** One crawl: the data the crawler returned, or an exception escaping the asynchronous run. */
  datatype CrawlOutcome = Returned(data: Json) | Raised

  /** The test the retry loop applies: success is 1 and the content is truthy. */
  predicate Accepted(p: Processed) {
    p.success && Truthy(p.content)
  }

  // ---------------------------------------------------------------------------
  // Candidate selection for a list result
  // ---------------------------------------------------------------------------

  /** A dict item whose `error` is exactly `False` and that has a `summarized_content` key. */
  predicate IsCandidate(item: Json) {
    && item.JObject?
    && "error" in item.fields && item.fields["error"] == JBool(false)
    && "summarized_content" in item.fields
  }

  /** The key `max` ranks candidates by: the length of a string content, and 0 for any other content. */
  function SummaryLength(item: Json): nat {
    if item.JObject? && "summarized_content" in item.fields && item.fields["summarized_content"].JStr?
    then |item.fields["summarized_content"].s|
    else 0
  }

  /** The valid items of a list result, in list order. */
  function Candidates(items: seq<Json>): (c: seq<Json>)
    ensures |c| <= |items|
    ensures forall i :: 0 <= i < |c| ==> IsCandidate(c[i]) && c[i] in items
    ensures forall x :: x in items && IsCandidate(x) ==> x in c
  {
    if items == [] then []
    else
      var rest := Candidates(items[1..]);
      assert forall x :: x in items ==> x == items[0] || x in items[1..];
      if IsCandidate(items[0]) then [items[0]] + rest else rest
  }

  /** Candidates are filtered item by item, so they keep the list's order and multiplicity. */
  lemma {:induction false} CandidatesAppend(a: seq<Json>, b: seq<Json>)
    ensures Candidates(a + b) == Candidates(a) + Candidates(b)
    ensures Candidates([]) == []
    ensures forall x :: Candidates([x]) == if IsCandidate(x) then [x] else []
    decreases |a|
  {
    if a == [] {
      assert a + b == b;
    } else {
      assert (a + b)[0] == a[0];
      assert (a + b)[1..] == a[1..] + b;
      CandidatesAppend(a[1..], b);
      if IsCandidate(a[0]) {
        assert [a[0]] + (Candidates(a[1..]) + Candidates(b)) == ([a[0]] + Candidates(a[1..])) + Candidates(b);
      }
    }
    forall x
      ensures Candidates([x]) == if IsCandidate(x) then [x] else []
    {
      assert [x][1..] == [];
    }
  }

  /** Index k holds a longest candidate, and every candidate before it is strictly shorter. */
  predicate IsFirstLongest(cands: seq<Json>, k: nat) {
    && k < |cands|
    && (forall j :: 0 <= j < |cands| ==> SummaryLength(cands[j]) <= SummaryLength(cands[k]))
    && (forall j :: 0 <= j < k ==> SummaryLength(cands[j]) < SummaryLength(cands[k]))
  }

  /** The position `max` picks: it keeps the first item whose key is largest. */
  function LongestIndex(cands: seq<Json>): (k: nat)
    requires cands != []
    ensures IsFirstLongest(cands, k)
    decreases |cands|
  {
    if |cands| == 1 then 0
    else
      var k' := LongestIndex(cands[1..]);
      if SummaryLength(cands[k' + 1]) > SummaryLength(cands[0]) then k' + 1 else 0
  }

  /** Only one position can be the first longest one, so the selection is determined. */
  lemma FirstLongestUnique(cands: seq<Json>, k1: nat, k2: nat)
    requires IsFirstLongest(cands, k1) && IsFirstLongest(cands, k2)
    ensures k1 == k2
  {
    assert SummaryLength(cands[k1]) == SummaryLength(cands[k2]);
  }

  // ---------------------------------------------------------------------------
  // process_extraction_result
  // ---------------------------------------------------------------------------

  /** The item's own `url` when the caller gave none (only a string `url` is taken). */
  function EffectiveUrl(url: Option<string>, item: Json): Option<string> {
    if url.Some? then url
    else if item.JObject? && "url" in item.fields && item.fields["url"].JStr? then Some(item.fields["url"].s)
    else None
  }

  /** Builds the returned dict, and names the cache key when success is 1, content is truthy and a url is known. */
  function Finish(success: bool, content: Json, url: Option<string>): Outcome {
    Outcome(Processed(success, content), if success && Truthy(content) && TruthyStr(url) then url else None)
  }

  /** A dict whose `error` is present and falsy and that has `summarized_content`. */
  predicate SummaryBranch(f: map<string, Json>) {
    "error" in f && !Truthy(f["error"]) && "summarized_content" in f
  }

  /** The backward-compatible dict form with a string `content`. */
  predicate ContentBranch(f: map<string, Json>) {
    "content" in f && f["content"].JStr?
  }

  function ProcessExtractionResult(result: Json, url: Option<string>): (o: Outcome)
    // a list result: no valid candidate means failure and nothing cached
    ensures result.JList? && Candidates(result.items) == [] ==> o == Outcome(Failure(), None)
    // otherwise the content of the first longest candidate; logging its length
    // raises for a content without one, which ends in failure and nothing cached
    ensures result.JList? && Candidates(result.items) != [] ==>
      exists k :: 0 <= k < |Candidates(result.items)| && IsFirstLongest(Candidates(result.items), k)
        && var c := Candidates(result.items)[k].fields["summarized_content"];
           if Sized(c) then o.processed == Processed(true, c) else o == Outcome(Failure(), None)
    // a dict result succeeds exactly with a non-empty string content
    ensures !result.JList? && o.processed.success ==> o.processed.content.JStr? && o.processed.content.s != ""
    ensures result.JObject? && SummaryBranch(result.fields) ==>
      && o.processed.content == result.fields["summarized_content"]
      && (o.processed.success <==> result.fields["summarized_content"].JStr? && result.fields["summarized_content"].s != "")
    ensures result.JObject? && !SummaryBranch(result.fields) && ContentBranch(result.fields) ==>
      && o.processed.content == result.fields["content"]
      && (o.processed.success <==> result.fields["content"].s != "")
    ensures result.JObject? && !SummaryBranch(result.fields) && !ContentBranch(result.fields) ==>
      o == Outcome(Failure(), None)
    // a scalar result is a failure
    ensures !result.JList? && !result.JObject? ==> o == Outcome(Failure(), None)
    // the cache is written only for an accepted result with a non-empty url
    ensures o.saveTo.Some? ==> Accepted(o.processed) && o.saveTo.value != ""
    ensures Accepted(o.processed) && TruthyStr(url) ==> o.saveTo == url
  {
    match result
    case JList(items) =>
      var valid := Candidates(items);
      if valid == [] then Outcome(Failure(), None)
      else
        var best := valid[LongestIndex(valid)];
        var content := best.fields["summarized_content"];
        if Sized(content) then Finish(true, content, EffectiveUrl(url, best))
        else Outcome(Failure(), None)
    case JObject(f) =>
      if SummaryBranch(f) then
        var c := f["summarized_content"];
        Finish(c.JStr? && c.s != "", c, EffectiveUrl(url, result))
      else if ContentBranch(f) then
        Finish(f["content"].s != "", f["content"], EffectiveUrl(url, result))
      else
        Outcome(Failure(), None)
    case _ => Outcome(Failure(), None)
  }

  // ---------------------------------------------------------------------------
  // The link_summaries table
  // ---------------------------------------------------------------------------

  /** A value the database driver can bind: binding a list or a dict raises, and the save reports failure. */
  predicate Bindable(v: Json) {
    !v.JList? && !v.JObject?
  }

  /** The table after `INSERT OR REPLACE` of (url, content). */
  function Upsert(entries: map<string, Json>, url: string, content: Json): (m: map<string, Json>)
    ensures m.Keys == entries.Keys + {url}
    ensures url in m && m[url] == content
    ensures forall k :: k in entries && k != url ==> m[k] == entries[k]
  {
    entries[url := content]
  }

  /** Re-saving the same pair changes nothing. */
  lemma UpsertIdempotent(entries: map<string, Json>, url: string, content: Json)
    ensures Upsert(Upsert(entries, url, content), url, content) == Upsert(entries, url, content)
  {
  }

  /** The table after the save that `process_extraction_result` performs for an outcome. */
  function Commit(entries: map<string, Json>, o: Outcome): map<string, Json> {
    if o.saveTo.Some? && Bindable(o.processed.content) then Upsert(entries, o.saveTo.value, o.processed.content)
    else entries
  }

  /** The answer for a cache hit: success with a truthy stored content, failure otherwise. */
  function CachedResult(v: Json): (p: Processed)
    ensures p.success <==> Truthy(v)
    ensures p.success ==> p.content == v
    ensures !p.success ==> p == Failure()
  {
    if Truthy(v) then Processed(true, v) else Failure()
  }

  /** One extraction attempt for `url`: an escaping exception is a failure. */
  function AttemptOutcome(c: CrawlOutcome, url: string): Outcome {
    match c
    case Raised => Outcome(Failure(), None)
    case Returned(data) => ProcessExtractionResult(data, Some(url))
  }

  /**
   * A successful attempt has a content whose length can be taken: the list
   * branch succeeds only with such a content and the dict branches only with
   * a string.
   */
  lemma SuccessIsSized(c: CrawlOutcome, url: string)
    ensures AttemptOutcome(c, url).processed.success ==> Sized(AttemptOutcome(c, url).processed.content)
  {
    if c.Returned? {
      ResultSuccessIsSized(c.data, Some(url));
    }
  }

  lemma ResultSuccessIsSized(result: Json, url: Option<string>)
    ensures ProcessExtractionResult(result, url).processed.success ==>
      Sized(ProcessExtractionResult(result, url).processed.content)
  {
    var o := ProcessExtractionResult(result, url);
    if result.JList? && o.processed.success {
      var valid := Candidates(result.items);
      assert valid != [];
      var content := valid[LongestIndex(valid)].fields["summarized_content"];
      assert o.processed.content == content && Sized(content);
    }
  }

  /**
   * `extract_summary` without retries, on the table `entries`: the result and
   * the table afterwards. A stored entry is never altered or removed, and the
   * table grows only by this url, only with an accepted content.
   */
  function ExtractOnce(entries: map<string, Json>, url: string, c: CrawlOutcome): (r: (Processed, map<string, Json>))
    ensures url in entries ==> r.0 == CachedResult(entries[url]) && r.1 == entries
    ensures url !in entries ==> r.0 == AttemptOutcome(c, url).processed
    ensures forall k :: k in entries ==> k in r.1 && r.1[k] == entries[k]
    ensures r.1.Keys <= entries.Keys + {url}
    ensures r.1 != entries ==> url !in entries && Accepted(r.0) && r.1 == entries[url := r.0.content]
  {
    if url in entries then (CachedResult(entries[url]), entries)
    else
      var o := AttemptOutcome(c, url);
      (o.processed, Commit(entries, o))
  }

  /** The delay before the attempt after the (i+1)-th failure: 1, 1.5, 2.25, ... seconds. */
  function Backoff(i: nat): real {
    if i == 0 then InitialBackoff else Backoff(i - 1) * BackoffFactor
  }

  /** Delays are at least one second and strictly increase. */
  lemma {:induction false} BackoffGrows(i: nat)
    ensures 1.0 <= Backoff(i) < Backoff(i + 1)
  {
    if i > 0 {
      BackoffGrows(i - 1);
    }
  }

  /** The summary cache, a table keyed by url. */
  class LinkCache {
    var entries: map<string, Json>

    constructor ()
      ensures entries == map[]
    {
      entries := map[];
    }

    /** `get_summary_from_db`: the stored content, or None when no row has this url. */
    function Get(url: string): (r: Option<Json>)
      reads this
      ensures r.Some? <==> url in entries
      ensures r.Some? ==> r.value == entries[url]
    {
      if url in entries then Some(entries[url]) else None
    }

    /** `save_summary_to_db`: insert or replace; reports failure when the content cannot be bound. */
    method Save(url: string, content: Json) returns (ok: bool)
      modifies this
      ensures ok == Bindable(content)
      ensures entries == if ok then Upsert(old(entries), url, content) else old(entries)
    {
      ok := Bindable(content);
      if ok {
        entries := Upsert(entries, url, content);
      }
    }

    /** `process_extraction_result` together with the save it performs. */
    method ProcessAndSave(result: Json, url: Option<string>) returns (p: Processed)
      modifies this
      ensures p == ProcessExtractionResult(result, url).processed
      ensures entries == Commit(old(entries), ProcessExtractionResult(result, url))
    {
      var o := ProcessExtractionResult(result, url);
      if o.saveTo.Some? {
        var saved := Save(o.saveTo.value, o.processed.content);
      }
      p := o.processed;
    }

    /** One crawl of `url` followed by processing. */
    method Attempt(url: string, c: CrawlOutcome) returns (p: Processed)
      modifies this
      ensures p == AttemptOutcome(c, url).processed
      ensures entries == Commit(old(entries), AttemptOutcome(c, url))
    {
      match c
      case Raised =>
        p := Failure();
      case Returned(data) =>
        p := ProcessAndSave(data, Some(url));
    }

    /**
     * `extract_summary`: the cache first; then one attempt, or in retry mode up
     * to MaxAttempts attempts returning the first accepted one. `sleeps` records
     * the delays slept between attempts; `attempts` counts the crawls made.
     */
    method ExtractSummary(url: string, enableRetries: bool, crawl: (string, nat) -> CrawlOutcome)
      returns (r: Processed, attempts: nat, sleeps: seq<real>)
      modifies this
      ensures url in old(entries) ==>
        r == CachedResult(old(entries)[url]) && attempts == 0 && sleeps == [] && entries == old(entries)
      ensures url !in old(entries) && !enableRetries ==>
        attempts == 1 && sleeps == [] && (r, entries) == ExtractOnce(old(entries), url, crawl(url, 0))
      ensures url !in old(entries) && enableRetries ==>
        && 1 <= attempts <= MaxAttempts
        && (forall i :: 0 <= i < attempts - 1 ==> !Accepted(AttemptOutcome(crawl(url, i), url).processed))
        && (if Accepted(AttemptOutcome(crawl(url, attempts - 1), url).processed)
            then r == AttemptOutcome(crawl(url, attempts - 1), url).processed
                 && entries == Commit(old(entries), AttemptOutcome(crawl(url, attempts - 1), url))
            else attempts == MaxAttempts && r == Failure() && entries == old(entries))
        && |sleeps| == attempts - 1
        && (forall i :: 0 <= i < |sleeps| ==> sleeps[i] == Backoff(i))
    {
      sleeps := [];
      if url in entries {
        r, attempts := CachedResult(entries[url]), 0;
        return;
      }
      if !enableRetries {
        attempts := 1;
        r := Attempt(url, crawl(url, 0));
        return;
      }
      var backoff := InitialBackoff;
      attempts := 0;
      while attempts < MaxAttempts
        invariant attempts <= MaxAttempts
        invariant entries == old(entries)
        invariant forall i :: 0 <= i < attempts ==> !Accepted(AttemptOutcome(crawl(url, i), url).processed)
        invariant |sleeps| == if attempts < MaxAttempts then attempts else MaxAttempts - 1
        invariant forall i :: 0 <= i < |sleeps| ==> sleeps[i] == Backoff(i)
        invariant backoff == Backoff(|sleeps|)
      {
        var p := Attempt(url, crawl(url, attempts));
        if Accepted(p) {
          r, attempts := p, attempts + 1;
          return;
        }
        if attempts < MaxAttempts - 1 {
          sleeps := sleeps + [backoff];
          backoff := backoff * BackoffFactor;
        }
        attempts := attempts + 1;
      }
      r := Failure();
    }
  }
}

=== FILE: payment_processor.dfy ===
/**
 * The TON payment processor: payment requests with a timeout, their status
 * checks and updates, confirmation against the wallet's recent transactions,
 * and the per-user subscriptions they buy.
 *
 * The two database tables are maps (payments keyed by payment id,
 * subscriptions keyed by Telegram user id); time is an integer number of
 * seconds passed in as `now`; amounts are integers in nanotons.
 */
module Payments {
  import opened Values

  const SecondsPerMinute: int := 60
  const SecondsPerDay: int := 24 * 60 * 60
  /** 0.01 TON, the tolerance used when matching amounts. */
  const AmountTolerance: int := 10_000_000

  const Pending := "pending"
  const Confirmed := "confirmed"
  const Expired := "expired"
  const BasicTier := "basic"

  /** One entry of the subscription tier table. */
  datatype Tier = Tier(name: string, priceNanoton: int, durationDays: int)

  /** A row of `payment_transactions`. */
  datatype Payment = Payment(
    userId: string,
    amount: int,
    tonAddress: string,
    txHash: Option<string>,
    status: string,
    network: string,
    createdAt: int,
    confirmedAt: Option<int>,
    expiresAt: int)

  /** A row of `user_subscriptions`. */
  datatype Subscription = Subscription(
    tier: string,
    paymentAmount: int,
    paymentTxHash: string,
    paymentDate: int,
    expiry: int,
    isActive: bool,
    updatedAt: Option<int>)

  /** What `create_payment_request` hands back. */
  datatype PaymentRequest = PaymentRequest(
    paymentId: string,
    amount: int,
    walletAddress: string,
    network: string,
    expiresAt: int,
    tier: string,
    durationDays: int)

  datatype CreateResult = Created(request: PaymentRequest) | InvalidTier(tier: string)

  /** What `check_payment_status` reports: nothing, or the row with its current status. */
  datatype PaymentInfo = NotFound | Found(paymentId: string, payment: Payment)

  /** What `check_user_subscription` reports. */
  datatype SubscriptionReport =
    | NoSubscription
    | Active(tier: string, paymentAmount: int, paymentDate: int, expiry: int, daysRemaining: int)
    | ExpiredSubscription

  /** A transaction of the wallet as the chain explorer lists it: the incoming value, if any, and its hash. */
  datatype ChainTx = ChainTx(inValue: Option<int>, hash: string)

  /** The explorer's answer: a failed request, an error reply, or the recent transactions. */
  datatype ChainAnswer = RequestFailed | ApiError | Transactions(txs: seq<ChainTx>)

  // ---------------------------------------------------------------------------
  // Tier table
  // ---------------------------------------------------------------------------

  /** `SUBSCRIPTION_TIERS[name]`: the first tier with that name. */
  function TierNamed(tiers: seq<Tier>, name: string): (r: Option<Tier>)
    ensures r.Some? ==> r.value in tiers && r.value.name == name
    ensures r.None? ==> forall i :: 0 <= i < |tiers| ==> tiers[i].name != name
  {
    if tiers == [] then None
    else if tiers[0].name == name then Some(tiers[0])
    else TierNamed(tiers[1..], name)
  }

  /** An amount matches a price when they differ by less than 0.01 TON. */
  predicate Near(amount: int, price: int) {
    -AmountTolerance < amount - price < AmountTolerance
  }

  /** The index of the first tier whose price matches the amount. */
  function FirstMatchingTier(tiers: seq<Tier>, amount: int): (r: Option<nat>)
    ensures r.Some? ==> r.value < |tiers| && Near(amount, tiers[r.value].priceNanoton)
    ensures r.Some? ==> forall j :: 0 <= j < r.value ==> !Near(amount, tiers[j].priceNanoton)
    ensures r.None? ==> forall j :: 0 <= j < |tiers| ==> !Near(amount, tiers[j].priceNanoton)
  {
    if tiers == [] then None
    else if Near(amount, tiers[0].priceNanoton) then Some(0)
    else
      var rest := FirstMatchingTier(tiers[1..], amount);
      if rest.Some? then Some(rest.value + 1) else None
  }

  /** The tier name a payment amount buys: the first matching tier, else "basic". */
  function TierFor(tiers: seq<Tier>, amount: int): string {
    var k := FirstMatchingTier(tiers, amount);
    if k.Some? then tiers[k.value].name else BasicTier
  }

  /** The tier table of the default configuration: basic at the configured price, premium at twice it. */
  function DefaultTiers(priceNanoton: int, durationDays: int): seq<Tier> {
    [Tier(BasicTier, priceNanoton, durationDays), Tier("premium", priceNanoton * 2, durationDays)]
  }

  /** With the default table and a price of at least 0.01 TON, each tier's own price buys that tier. */
  lemma DefaultTierPrices(priceNanoton: int, durationDays: int)
    requires priceNanoton >= AmountTolerance
    ensures TierFor(DefaultTiers(priceNanoton, durationDays), priceNanoton) == BasicTier
    ensures TierFor(DefaultTiers(priceNanoton, durationDays), priceNanoton * 2) == "premium"
  {
    var tiers := DefaultTiers(priceNanoton, durationDays);
    assert !Near(priceNanoton * 2, tiers[0].priceNanoton);
    assert tiers[1..][0] == tiers[1];
  }

  // ---------------------------------------------------------------------------
  // Rows after the updates
  // ---------------------------------------------------------------------------

  /** The row after `update_payment_status(payment_id, status, tx_hash)` at time `now`. */
  function WithStatus(p: Payment, status: string, txHash: Option<string>, now: int): (q: Payment)
    ensures q.status == status
    ensures status == Confirmed && TruthyStr(txHash) ==> q.txHash == txHash && q.confirmedAt == Some(now)
    ensures !(status == Confirmed && TruthyStr(txHash)) ==> q.txHash == p.txHash && q.confirmedAt == p.confirmedAt
    ensures q.(status := p.status, txHash := p.txHash, confirmedAt := p.confirmedAt) == p
  {
    if status == Confirmed && TruthyStr(txHash) then p.(status := status, txHash := txHash, confirmedAt := Some(now))
    else p.(status := status)
  }

  /** The row as `check_payment_status` leaves it at time `now`: a pending payment past its expiry expires. */
  function Checked(p: Payment, now: int): (q: Payment)
    ensures p.status != Pending ==> q == p
    ensures p.status == Pending ==> (q.status == Expired <==> now > p.expiresAt)
    ensures p.status == Pending && now <= p.expiresAt ==> q == p
    ensures q == p.(status := q.status)
  {
    if now > p.expiresAt && p.status == Pending then WithStatus(p, Expired, None, now) else p
  }

  /** The expiry a subscription purchase sets: extended from a current expiry still in the future, else from now. */
  function SubscriptionExpiry(current: Option<int>, now: int, durationDays: int): (e: int)
    ensures e == (if current.Some? && current.value > now then current.value else now) + durationDays * SecondsPerDay
    ensures e >= now + durationDays * SecondsPerDay
  {
    var fromNow := now + durationDays * SecondsPerDay;
    if current.Some? then
      if current.value > now then current.value + durationDays * SecondsPerDay else fromNow
    else fromNow
  }

  /** The subscription row after a purchase; an existing row keeps nothing but what sets its expiry. */
  function Subscribed(existing: Option<Subscription>, tier: string, amount: int, txHash: string,
                      now: int, durationDays: int): (s: Subscription)
    ensures s.isActive && s.tier == tier && s.paymentAmount == amount && s.paymentTxHash == txHash
    ensures s.paymentDate == now
    ensures s.expiry == SubscriptionExpiry(if existing.Some? then Some(existing.value.expiry) else None, now, durationDays)
    ensures existing.None? ==> s.updatedAt == None
    ensures existing.Some? ==> s.updatedAt == Some(now)
  {
    match existing
    case None =>
      Subscription(tier, amount, txHash, now, now + durationDays * SecondsPerDay, true, None)
    case Some(old_) =>
      var newExpiry := if old_.expiry > now then old_.expiry + durationDays * SecondsPerDay
                       else now + durationDays * SecondsPerDay;
      Subscription(tier, amount, txHash, now, newExpiry, true, Some(now))
  }

  /** The row after `deactivate_subscription` at time `now`. */
  function Deactivated(s: Subscription, now: int): (d: Subscription)
    ensures !d.isActive && d.updatedAt == Some(now)
    ensures d.(isActive := s.isActive, updatedAt := s.updatedAt) == s
  {
    s.(isActive := false, updatedAt := Some(now))
  }

  /** What `check_user_subscription` reports for the user's row at time `now`. */
  function SubscriptionStatus(s: Option<Subscription>, now: int): (r: SubscriptionReport)
    ensures r.NoSubscription? <==> s.None? || !s.value.isActive
    ensures r.Active? <==> s.Some? && s.value.isActive && s.value.expiry > now
    ensures r.Active? ==> r.expiry == s.value.expiry && r.tier == s.value.tier && r.daysRemaining >= 0
    ensures r.Active? ==> r.paymentAmount == s.value.paymentAmount && r.paymentDate == s.value.paymentDate
    ensures r.Active? ==> r.daysRemaining * SecondsPerDay <= s.value.expiry - now < (r.daysRemaining + 1) * SecondsPerDay
  {
    if s.None? || !s.value.isActive then NoSubscription
    else if s.value.expiry > now then
      Active(s.value.tier, s.value.paymentAmount, s.value.paymentDate, s.value.expiry, (s.value.expiry - now) / SecondsPerDay)
    else ExpiredSubscription
  }

  // ---------------------------------------------------------------------------
  // Lifecycle properties
  // ---------------------------------------------------------------------------

  /** A fresh payment stays pending through its timeout, and is expired by any check after it. */
  lemma PaymentTimeout(p: Payment, created: int, timeoutMinutes: int, t: int)
    requires p.status == Pending && p.expiresAt == created + timeoutMinutes * SecondsPerMinute
    ensures Checked(p, t).status == (if t > created + timeoutMinutes * SecondsPerMinute then Expired else Pending)
  {
  }

  /** Once a check has settled a payment, later checks change nothing. */
  lemma {:induction false} CheckSettles(p: Payment, t: int, t': int)
    requires t <= t'
    requires Checked(p, t).status != Pending || p.status != Pending
    ensures Checked(Checked(p, t), t') == Checked(p, t)
  {
    if p.status == Pending {
      assert Checked(p, t).status == Expired;
    }
  }

  /** A purchase leaves an active subscription with at least the purchased days remaining. */
  lemma {:induction false} PurchaseThenCheck(existing: Option<Subscription>, tier: string, amount: int, txHash: string,
                                             now: int, durationDays: int)
    requires durationDays > 0
    ensures var r := SubscriptionStatus(Some(Subscribed(existing, tier, amount, txHash, now, durationDays)), now);
      r.Active? && r.tier == tier && r.daysRemaining >= durationDays
  {
    var s := Subscribed(existing, tier, amount, txHash, now, durationDays);
    assert s.expiry - now >= durationDays * SecondsPerDay;
    var r := SubscriptionStatus(Some(s), now);
    assert (r.daysRemaining + 1) * SecondsPerDay > durationDays * SecondsPerDay;
  }

  /** Buying while still subscribed adds the whole purchased period to the current expiry. */
  lemma RenewalStacks(existing: Subscription, tier: string, amount: int, txHash: string, now: int, durationDays: int)
    requires existing.expiry > now
    ensures Subscribed(Some(existing), tier, amount, txHash, now, durationDays).expiry
            == existing.expiry + durationDays * SecondsPerDay
  {
  }

  /** A deactivated subscription is reported as no subscription. */
  lemma DeactivatedThenCheck(s: Subscription, now: int, t: int)
    ensures SubscriptionStatus(Some(Deactivated(s, now)), t) == NoSubscription
  {
  }

  /** The index of the first listed transaction whose incoming value matches the expected amount. */
  function FirstPaying(txs: seq<ChainTx>, expected: int): (r: Option<nat>)
    ensures r.Some? ==> r.value < |txs| && txs[r.value].inValue.Some? && Near(txs[r.value].inValue.value, expected)
    ensures r.Some? ==> forall j :: 0 <= j < r.value ==> !(txs[j].inValue.Some? && Near(txs[j].inValue.value, expected))
    ensures r.None? ==> forall j :: 0 <= j < |txs| ==> !(txs[j].inValue.Some? && Near(txs[j].inValue.value, expected))
  {
    if txs == [] then None
    else if txs[0].inValue.Some? && Near(txs[0].inValue.value, expected) then Some(0)
    else
      var rest := FirstPaying(txs[1..], expected);
      if rest.Some? then Some(rest.value + 1) else None
  }

  // ---------------------------------------------------------------------------
  // The processor
  // ---------------------------------------------------------------------------

  class PaymentProcessor {
    const tiers: seq<Tier>
    const timeoutMinutes: int
    const walletAddress: string
    const network: string
    var payments: map<string, Payment>
    var subscriptions: map<string, Subscription>

    constructor(tiers: seq<Tier>, timeoutMinutes: int, walletAddress: string, network: string,
                payments: map<string, Payment>, subscriptions: map<string, Subscription>)
      ensures this.tiers == tiers && this.timeoutMinutes == timeoutMinutes
      ensures this.walletAddress == walletAddress && this.network == network
      ensures this.payments == payments && this.subscriptions == subscriptions
    {
      this.tiers := tiers;
      this.timeoutMinutes := timeoutMinutes;
      this.walletAddress := walletAddress;
      this.network := network;
      this.payments := payments;
      this.subscriptions := subscriptions;
    }

    /**
     * `create_payment_request`: an unknown tier is refused; otherwise a
     * pending payment for the tier's price is stored under the fresh
     * `paymentId`, expiring after the payment timeout.
     */
    method CreatePaymentRequest(userId: string, username: Option<string>, tier: string, paymentId: string, now: int)
      returns (r: CreateResult)
      requires paymentId !in payments
      modifies this
      ensures TierNamed(tiers, tier).None? ==> r == InvalidTier(tier) && payments == old(payments)
      ensures TierNamed(tiers, tier).Some? ==>
        var t := TierNamed(tiers, tier).value;
        var expiresAt := now + timeoutMinutes * SecondsPerMinute;
        && r == Created(PaymentRequest(paymentId, t.priceNanoton, walletAddress, network, expiresAt, tier, t.durationDays))
        && payments == old(payments)[paymentId := Payment(userId, t.priceNanoton, walletAddress, None, Pending,
                                                          network, now, None, expiresAt)]
      ensures subscriptions == old(subscriptions)
    {
      var config := TierNamed(tiers, tier);
      if config.None? {
        return InvalidTier(tier);
      }
      var amount := config.value.priceNanoton;
      var expiresAt := now + timeoutMinutes * SecondsPerMinute;
      payments := payments[paymentId := Payment(userId, amount, walletAddress, None, Pending, network, now, None, expiresAt)];
      r := Created(PaymentRequest(paymentId, amount, walletAddress, network, expiresAt, tier, config.value.durationDays));
    }

    /** `update_payment_status`: the row of `paymentId`, if any, takes the new status (and the hash when confirmed with one). */
    method UpdatePaymentStatus(paymentId: string, status: string, txHash: Option<string>, now: int)
      modifies this
      ensures paymentId in old(payments) ==>
        payments == old(payments)[paymentId := WithStatus(old(payments)[paymentId], status, txHash, now)]
      ensures paymentId !in old(payments) ==> payments == old(payments)
      ensures subscriptions == old(subscriptions)
    {
      if paymentId in payments {
        var p := payments[paymentId];
        if status == Confirmed && TruthyStr(txHash) {
          payments := payments[paymentId := p.(status := status, txHash := txHash, confirmedAt := Some(now))];
        } else {
          payments := payments[paymentId := p.(status := status)];
        }
      }
    }

    /** `check_payment_status`: not found, or the row as of `now`, a pending payment past its expiry being marked expired. */
    method CheckPaymentStatus(paymentId: string, now: int) returns (info: PaymentInfo)
      modifies this
      ensures paymentId !in old(payments) ==> info == NotFound && payments == old(payments)
      ensures paymentId in old(payments) ==>
        && info == Found(paymentId, Checked(old(payments)[paymentId], now))
        && payments == old(payments)[paymentId := Checked(old(payments)[paymentId], now)]
      ensures subscriptions == old(subscriptions)
    {
      if paymentId !in payments {
        return NotFound;
      }
      var p := payments[paymentId];
      if now > p.expiresAt {
        if p.status == Pending {
          UpdatePaymentStatus(paymentId, Expired, None, now);
          p := p.(status := Expired);
        }
      }
      info := Found(paymentId, p);
    }

    /**
     * The tier bought by `amount` (the loop over `SUBSCRIPTION_TIERS` in
     * `create_subscription`): the first tier whose price matches, else "basic".
     */
    method MatchTier(amount: int) returns (tier: string)
      ensures tier == TierFor(tiers, amount)
    {
      tier := BasicTier;
      var i := 0;
      while i < |tiers|
        invariant 0 <= i <= |tiers|
        invariant forall j :: 0 <= j < i ==> !Near(amount, tiers[j].priceNanoton)
        invariant tier == BasicTier
      {
        if -AmountTolerance < amount - tiers[i].priceNanoton < AmountTolerance {
          tier := tiers[i].name;
          return;
        }
        i := i + 1;
      }
    }

    /**
     * `create_subscription`: fails (changing nothing) when the matched tier is
     * missing from the table; otherwise the user's row becomes an active
     * subscription of that tier, with the expiry extended or restarted.
     */
    method CreateSubscription(userId: string, amount: int, txHash: string, now: int) returns (ok: bool)
      modifies this
      ensures var name := TierFor(tiers, amount);
        && ok == TierNamed(tiers, name).Some?
        && (ok ==> subscriptions == old(subscriptions)[userId := Subscribed(
                     if userId in old(subscriptions) then Some(old(subscriptions)[userId]) else None,
                     name, amount, txHash, now, TierNamed(tiers, name).value.durationDays)])
        && (!ok ==> subscriptions == old(subscriptions))
      ensures payments == old(payments)
    {
      var name := MatchTier(amount);
      var config := TierNamed(tiers, name);
      if config.None? {
        return false;
      }
      var days := config.value.durationDays;
      var expiryDate := now + days * SecondsPerDay;
      if userId in subscriptions {
        var currentExpiry := subscriptions[userId].expiry;
        var newExpiry;
        if currentExpiry > now {
          newExpiry := currentExpiry + days * SecondsPerDay;
        } else {
          newExpiry := expiryDate;
        }
        subscriptions := subscriptions[userId := Subscription(name, amount, txHash, now, newExpiry, true, Some(now))];
      } else {
        subscriptions := subscriptions[userId := Subscription(name, amount, txHash, now, expiryDate, true, None)];
      }
      ok := true;
    }

    /** The first listed transaction paying the expected amount (the loop of `verify_payment_on_blockchain`). */
    method FindPayingTx(txs: seq<ChainTx>, expected: int) returns (found: Option<nat>)
      ensures found == FirstPaying(txs, expected)
    {
      found := None;
      var i := 0;
      while i < |txs|
        invariant 0 <= i <= |txs|
        invariant forall j :: 0 <= j < i ==> !(txs[j].inValue.Some? && Near(txs[j].inValue.value, expected))
      {
        if txs[i].inValue.Some? && -AmountTolerance < txs[i].inValue.value - expected < AmountTolerance {
          return Some(i);
        }
        i := i + 1;
      }
    }

    /**
     * `verify_payment_on_blockchain`: a payment that is not pending after the
     * status check is verified exactly when it is confirmed, without asking
     * the chain; a pending one is confirmed, and its subscription bought,
     * when a listed transaction pays its amount.
     */
    method VerifyPayment(paymentId: string, answer: ChainAnswer, now: int) returns (verified: bool)
      modifies this
      ensures paymentId !in old(payments) ==> !verified && payments == old(payments) && subscriptions == old(subscriptions)
      ensures paymentId in old(payments) && Checked(old(payments)[paymentId], now).status != Pending ==>
        && verified == (Checked(old(payments)[paymentId], now).status == Confirmed)
        && payments == old(payments)[paymentId := Checked(old(payments)[paymentId], now)]
        && subscriptions == old(subscriptions)
      ensures paymentId in old(payments) && Checked(old(payments)[paymentId], now).status == Pending ==>
        var p := old(payments)[paymentId];
        if answer.Transactions? && FirstPaying(answer.txs, p.amount).Some? then
          var tx := answer.txs[FirstPaying(answer.txs, p.amount).value];
          var name := TierFor(tiers, p.amount);
          && payments == old(payments)[paymentId := WithStatus(p, Confirmed, Some(tx.hash), now)]
          && verified == TierNamed(tiers, name).Some?
          && (verified ==> subscriptions == old(subscriptions)[p.userId := Subscribed(
                             if p.userId in old(subscriptions) then Some(old(subscriptions)[p.userId]) else None,
                             name, p.amount, tx.hash, now, TierNamed(tiers, name).value.durationDays)])
          && (!verified ==> subscriptions == old(subscriptions))
        else
          && !verified && payments == old(payments) && subscriptions == old(subscriptions)
    {
      var info := CheckPaymentStatus(paymentId, now);
      if info.NotFound? {
        return false;
      }
      if info.payment.status != Pending {
        return info.payment.status == Confirmed;
      }
      if !answer.Transactions? {
        return false;
      }
      var expected := info.payment.amount;
      var found := FindPayingTx(answer.txs, expected);
      if found.None? {
        return false;
      }
      var txHash := answer.txs[found.value].hash;
      UpdatePaymentStatus(paymentId, Confirmed, Some(txHash), now);
      verified := CreateSubscription(info.payment.userId, expected, txHash, now);
    }

    /** `deactivate_subscription`: the user's row, if any, becomes inactive. */
    method DeactivateSubscription(userId: string, now: int)
      modifies this
      ensures userId in old(subscriptions) ==>
        subscriptions == old(subscriptions)[userId := Deactivated(old(subscriptions)[userId], now)]
      ensures userId !in old(subscriptions) ==> subscriptions == old(subscriptions)
      ensures payments == old(payments)
    {
      if userId in subscriptions {
        subscriptions := subscriptions[userId := subscriptions[userId].(isActive := false, updatedAt := Some(now))];
      }
    }

    /**
     * `check_user_subscription`: the report for the user's active row; an
     * active row past its expiry is deactivated and reported expired.
     */
    method CheckUserSubscription(userId: string, now: int) returns (r: SubscriptionReport)
      modifies this
      ensures var row := if userId in old(subscriptions) then Some(old(subscriptions)[userId]) else None;
        r == SubscriptionStatus(row, now)
      ensures r.ExpiredSubscription? ==>
        subscriptions == old(subscriptions)[userId := Deactivated(old(subscriptions)[userId], now)]
      ensures !r.ExpiredSubscription? ==> subscriptions == old(subscriptions)
      ensures payments == old(payments)
    {
      if userId !in subscriptions || !subscriptions[userId].isActive {
        return NoSubscription;
      }
      var s := subscriptions[userId];
      if s.expiry > now {
        return Active(s.tier, s.paymentAmount, s.paymentDate, s.expiry, (s.expiry - now) / SecondsPerDay);
      }
      DeactivateSubscription(userId, now);
      r := ExpiredSubscription;
    }
  }
}

=== FILE: update_source_types.dfy ===
/**
 * The source-type backfill (`update_existing_sources`): every source whose
 * type is missing is classified from its url, Telegram links as "telegram"
 * and everything else as "rss", in one transaction.
 *
 * The `sources` table is a sequence of rows in storage order, which is the
 * order in which the selection returns them; `id` is the table's key.
 */
module SourceTypes {
  import opened Values

  const TelegramType := "telegram"
  const RssType := "rss"

  /** A row of `sources`: its key, and its url and type, either of which may be NULL. */
  datatype SourceRow = SourceRow(id: int, url: Option<string>, sourceType: Option<string>)

  /** No two rows share an id. */
  predicate UniqueIds(rows: seq<SourceRow>) {
    forall i, j :: 0 <= i < j < |rows| ==> rows[i].id != rows[j].id
  }

  /** `source_type IS NULL OR source_type = ''` */
  predicate MissingType(r: SourceRow) {
    r.sourceType.None? || r.sourceType == Some("")
  }

  /** `SELECT id, url FROM sources WHERE source_type IS NULL OR source_type = ''`, in table order. */
  function Selected(rows: seq<SourceRow>): (r: seq<SourceRow>)
    ensures |r| <= |rows|
    ensures forall j :: 0 <= j < |r| ==> MissingType(r[j]) && r[j] in rows
    ensures forall i :: 0 <= i < |rows| && MissingType(rows[i]) ==> rows[i] in r
    decreases |rows|
  {
    if rows == [] then []
    else
      var init := rows[..|rows| - 1];
      var last := rows[|rows| - 1];
      assert forall x :: x in init ==> x in rows;
      assert forall i :: 0 <= i < |init| ==> init[i] == rows[i];
      Selected(init) + (if MissingType(last) then [last] else [])
  }

  /** The selection keeps table order and duplicates: it filters row by row. */
  lemma {:induction false} SelectedAppend(a: seq<SourceRow>, b: seq<SourceRow>)
    ensures Selected(a + b) == Selected(a) + Selected(b)
    decreases |b|
  {
    if b == [] {
      assert a + b == a;
    } else {
      var init := b[..|b| - 1];
      var last := b[|b| - 1];
      var tail := if MissingType(last) then [last] else [];
      assert b == init + [last];
      assert a + b == (a + init) + [last];
      calc {
        Selected(a + b);
        Selected((a + init) + [last]);
        { SelectedSnoc(a + init, last); }
        Selected(a + init) + tail;
        { SelectedAppend(a, init); }
        (Selected(a) + Selected(init)) + tail;
        Selected(a) + (Selected(init) + tail);
        { SelectedSnoc(init, last); }
        Selected(a) + Selected(b);
      }
    }
  }

  /** One row at the end of the table is selected when its type is missing. */
  lemma SelectedSnoc(a: seq<SourceRow>, x: SourceRow)
    ensures Selected(a + [x]) == Selected(a) + (if MissingType(x) then [x] else [])
  {
    assert (a + [x])[..|a|] == a;
  }

  // ---------------------------------------------------------------------------
  // The url pattern
  // ---------------------------------------------------------------------------

  /** A prefix made of two parts is matched part by part. */
  lemma StartsWithParts(s: string, a: string, b: string)
    ensures StartsWith(s, a + b) <==> StartsWith(s, a) && StartsWith(s[|a|..], b)
  {
    if StartsWith(s, a + b) {
      assert s[..|a|] == (a + b)[..|a|] == a;
      assert s[|a|..][..|b|] == s[|a|..|a| + |b|] == (a + b)[|a|..] == b;
    }
    if StartsWith(s, a) && StartsWith(s[|a|..], b) {
      assert s[..|a| + |b|] == s[..|a|] + s[|a|..][..|b|];
    }
  }

  /** `re.match(r'^https?://t\.me/', url)`: "http", an optional "s", then "://t.me/". */
  function TelegramPattern(url: string): bool {
    if !StartsWith(url, "http") then false
    else
      var rest := url[4..];
      var afterScheme := if StartsWith(rest, "s") then rest[1..] else rest;
      StartsWith(afterScheme, "://t.me/")
  }

  /** The pattern matches exactly the urls that begin with "http://t.me/" or "https://t.me/". */
  lemma TelegramPatternMeaning(url: string)
    ensures TelegramPattern(url) <==> StartsWith(url, "http://t.me/") || StartsWith(url, "https://t.me/")
  {
    assert "http://t.me/" == "http" + "://t.me/";
    assert "https://t.me/" == "http" + "s://t.me/";
    assert "s://t.me/" == "s" + "://t.me/";
    StartsWithParts(url, "http", "://t.me/");
    StartsWithParts(url, "http", "s://t.me/");
    if StartsWith(url, "http") {
      var rest := url[4..];
      StartsWithParts(rest, "s", "://t.me/");
      if StartsWith(rest, "s") {
        assert rest[..1][0] == rest[0];
      }
      if StartsWith(rest, "://t.me/") {
        assert rest[..8][0] == rest[0];
      }
    }
  }

  /** The type a url is given. */
  function SourceTypeFor(url: string): (t: string)
    ensures t == TelegramType <==> StartsWith(url, "http://t.me/") || StartsWith(url, "https://t.me/")
    ensures t == TelegramType || t == RssType
  {
    TelegramPatternMeaning(url);
    if TelegramPattern(url) then TelegramType else RssType
  }

  // ---------------------------------------------------------------------------
  // The updates
  // ---------------------------------------------------------------------------

  /** `UPDATE sources SET source_type = ? WHERE id = ?` */
  function SetType(rows: seq<SourceRow>, id: int, t: string): (r: seq<SourceRow>)
    ensures |r| == |rows|
  {
    seq(|rows|, i requires 0 <= i < |rows| => if rows[i].id == id then rows[i].(sourceType := Some(t)) else rows[i])
  }

  /** The updates issued for the selected rows `rs`, in order. */
  function Apply(rows: seq<SourceRow>, rs: seq<SourceRow>): (r: seq<SourceRow>)
    requires forall j :: 0 <= j < |rs| ==> rs[j].url.Some?
    ensures |r| == |rows|
    decreases |rs|
  {
    if rs == [] then rows
    else
      var last := rs[|rs| - 1];
      SetType(Apply(rows, rs[..|rs| - 1]), last.id, SourceTypeFor(last.url.value))
  }

  /** No selected row has a NULL url (the case in which the backfill fails). */
  predicate SelectedUrlsPresent(rows: seq<SourceRow>) {
    forall i :: 0 <= i < |rows| && MissingType(rows[i]) ==> rows[i].url.Some?
  }

  /** A selected row once its type is set from its url. */
  function ClassifiedRow(r: SourceRow): SourceRow
    requires r.url.Some?
  {
    r.(sourceType := Some(SourceTypeFor(r.url.value)))
  }

  /** The table after a successful backfill. */
  function Classified(rows: seq<SourceRow>): (c: seq<SourceRow>)
    requires SelectedUrlsPresent(rows)
    ensures |c| == |rows|
    ensures forall i :: 0 <= i < |rows| && !MissingType(rows[i]) ==> c[i] == rows[i]
    ensures forall i :: 0 <= i < |rows| && MissingType(rows[i]) ==>
      c[i].id == rows[i].id && c[i].url == rows[i].url && c[i].sourceType == Some(SourceTypeFor(rows[i].url.value))
  {
    seq(|rows|, i requires 0 <= i < |rows| => if MissingType(rows[i]) then ClassifiedRow(rows[i]) else rows[i])
  }

  /** After a backfill no type is missing, so running it again selects nothing and changes nothing. */
  lemma ClassifiedIsFinal(rows: seq<SourceRow>)
    requires SelectedUrlsPresent(rows)
    ensures Selected(Classified(rows)) == []
    ensures SelectedUrlsPresent(Classified(rows)) && Classified(Classified(rows)) == Classified(rows)
  {
    var c := Classified(rows);
    assert forall i :: 0 <= i < |c| ==> !MissingType(c[i]);
    NothingSelected(c);
  }

  lemma {:induction false} NothingSelected(rows: seq<SourceRow>)
    requires forall i :: 0 <= i < |rows| ==> !MissingType(rows[i])
    ensures Selected(rows) == []
    decreases |rows|
  {
    if rows != [] {
      NothingSelected(rows[..|rows| - 1]);
    }
  }

  // Applying the updates of the selection to the table classifies exactly the selected rows.

  lemma SetTypeAppend(a: seq<SourceRow>, r: SourceRow, id: int, t: string)
    ensures SetType(a + [r], id, t) == SetType(a, id, t) + [if r.id == id then r.(sourceType := Some(t)) else r]
  {
  }

  lemma SetTypeOtherIds(a: seq<SourceRow>, id: int, t: string)
    requires forall i :: 0 <= i < |a| ==> a[i].id != id
    ensures SetType(a, id, t) == a
  {
  }

  /** Updates for ids other than that of the appended row leave that row alone. */
  lemma {:induction false} ApplyAppendRow(a: seq<SourceRow>, r: SourceRow, rs: seq<SourceRow>)
    requires forall j :: 0 <= j < |rs| ==> rs[j].url.Some? && rs[j].id != r.id
    ensures Apply(a + [r], rs) == Apply(a, rs) + [r]
    decreases |rs|
  {
    if rs != [] {
      var last := rs[|rs| - 1];
      ApplyAppendRow(a, r, rs[..|rs| - 1]);
      SetTypeAppend(Apply(a, rs[..|rs| - 1]), r, last.id, SourceTypeFor(last.url.value));
    }
  }

  lemma {:induction false} ApplyKeepsIds(a: seq<SourceRow>, rs: seq<SourceRow>)
    requires forall j :: 0 <= j < |rs| ==> rs[j].url.Some?
    ensures forall i :: 0 <= i < |a| ==> Apply(a, rs)[i].id == a[i].id
    decreases |rs|
  {
    if rs != [] {
      ApplyKeepsIds(a, rs[..|rs| - 1]);
    }
  }

  /** With unique ids, the updates of the whole selection give the backfilled table. */
  lemma {:induction false} ApplySelection(rows: seq<SourceRow>)
    requires UniqueIds(rows) && SelectedUrlsPresent(rows)
    ensures forall j :: 0 <= j < |Selected(rows)| ==> Selected(rows)[j].url.Some?
    ensures Apply(rows, Selected(rows)) == Classified(rows)
    decreases |rows|
  {
    if rows != [] {
      var a := rows[..|rows| - 1];
      var r := rows[|rows| - 1];
      assert rows == a + [r];
      assert forall i :: 0 <= i < |a| ==> a[i] == rows[i];
      ApplySelection(a);
      var sel := Selected(a);
      forall j | 0 <= j < |sel|
        ensures sel[j].url.Some? && sel[j].id != r.id
      {
        assert sel[j] in a;
      }
      ApplyAppendRow(a, r, sel);
      assert Classified(rows) == Classified(a) + [if MissingType(r) then ClassifiedRow(r) else r];
      if MissingType(r) {
        var rs := sel + [r];
        assert Selected(rows) == rs;
        assert rs[..|rs| - 1] == sel;
        var b := Classified(a);
        ApplyKeepsIds(a, sel);
        SetTypeAppend(b, r, r.id, SourceTypeFor(r.url.value));
        SetTypeOtherIds(b, r.id, SourceTypeFor(r.url.value));
      } else {
        assert Selected(rows) == sel;
      }
    }
  }

  /** A selected row with a NULL url is a row the backfill cannot classify. */
  lemma NullUrlSelected(rows: seq<SourceRow>, k: nat)
    requires k < |Selected(rows)| && Selected(rows)[k].url.None?
    ensures !SelectedUrlsPresent(rows)
  {
    assert Selected(rows)[k] in rows;
  }

  /** Every selected url present means every missing-type row has its url. */
  lemma SelectedUrlsSeen(rows: seq<SourceRow>)
    requires forall j :: 0 <= j < |Selected(rows)| ==> Selected(rows)[j].url.Some?
    ensures SelectedUrlsPresent(rows)
  {
    forall i | 0 <= i < |rows| && MissingType(rows[i])
      ensures rows[i].url.Some?
    {
      assert rows[i] in Selected(rows);
    }
  }

  lemma ApplyStep(rows: seq<SourceRow>, rs: seq<SourceRow>, k: nat)
    requires k < |rs| && forall j :: 0 <= j <= k ==> rs[j].url.Some?
    ensures Apply(rows, rs[..k + 1]) == SetType(Apply(rows, rs[..k]), rs[k].id, SourceTypeFor(rs[k].url.value))
  {
    assert rs[..k + 1][..k] == rs[..k];
  }

  /** One turn of the backfill loop: the row `id` gets the type its url calls for. */
  method UpdateSource(rows: seq<SourceRow>, id: int, url: string) returns (rows': seq<SourceRow>)
    ensures rows' == SetType(rows, id, SourceTypeFor(url))
  {
    var sourceType;
    if TelegramPattern(url) {
      sourceType := TelegramType;
    } else {
      sourceType := RssType;
    }
    rows' := SetType(rows, id, sourceType);
  }

  class SourceTable {
    var rows: seq<SourceRow>

    constructor(rows: seq<SourceRow>)
      ensures this.rows == rows
    {
      this.rows := rows;
    }

    /**
     * `update_existing_sources`: the number of rows updated. A NULL url among
     * the selected rows makes the pattern test raise, which rolls the whole
     * transaction back and returns 0.
     */
    method UpdateExistingSources() returns (count: nat)
      requires UniqueIds(rows)
      modifies this
      ensures !SelectedUrlsPresent(old(rows)) ==> count == 0 && rows == old(rows)
      ensures SelectedUrlsPresent(old(rows)) ==> count == |Selected(old(rows))| && rows == Classified(old(rows))
    {
      var snapshot := rows;
      var results := Selected(rows);
      if results == [] {
        assert forall i :: 0 <= i < |snapshot| ==> !MissingType(snapshot[i]);
        assert Classified(snapshot) == snapshot;
        return 0;
      }
      count := 0;
      for k := 0 to |results|
        invariant count == k
        invariant forall j :: 0 <= j < k ==> results[j].url.Some?
        invariant rows == Apply(snapshot, results[..k])
      {
        if results[k].url.None? {
          // the pattern test raises on NULL: the transaction is rolled back
          NullUrlSelected(snapshot, k);
          rows := snapshot;
          return 0;
        }
        ApplyStep(snapshot, results, k);
        rows := UpdateSource(rows, results[k].id, results[k].url.value);
        count := count + 1;
      }
      assert results[..|results|] == results;
      SelectedUrlsSeen(snapshot);
      ApplySelection(snapshot);
    }
  }
}

=== FILE: values.dfy ===
/**
 * Shared value types: an Option, the JSON values that the extraction service
 * and the database hand back (with Python's truthiness), and the few string
 * tests the pipeline uses (prefix, substring, ASCII lower-casing).
 */
module Values {

  datatype Option<+T> = None | Some(value: T)

  /** A value as produced by `json.loads` (floating-point numbers are not modelled). */
  datatype Json =
    | JNull
    | JBool(b: bool)
    | JInt(i: int)
    | JStr(s: string)
    | JList(items: seq<Json>)
    | JObject(fields: map<string, Json>)

  /** Python's truth value of a JSON value: `None`, `False`, `0`, `""`, `[]` and `{}` are false. */
  predicate Truthy(v: Json) {
    match v
    case JNull => false
    case JBool(b) => b
    case JInt(i) => i != 0
    case JStr(s) => s != ""
    case JList(items) => items != []
    case JObject(fields) => fields != map[]
  }

  /** The values `len` accepts: strings, lists and dicts. */
  predicate Sized(v: Json) {
    v.JStr? || v.JList? || v.JObject?
  }

  /** Python's truth value of an optional string (`None` and `""` are false). */
  predicate TruthyStr(s: Option<string>) {
    s.Some? && s.value != ""
  }

  /** `s.startswith(prefix)` */
  predicate StartsWith(s: string, prefix: string) {
    |prefix| <= |s| && s[..|prefix|] == prefix
  }

  /** `sub` occurs in `s` at position `i` */
  predicate OccursAt(s: string, sub: string, i: int) {
    0 <= i <= |s| - |sub| && s[i..i + |sub|] == sub
  }

  /** `sub in s` for strings */
  predicate Contains(s: string, sub: string) {
    exists i | 0 <= i <= |s| - |sub| :: OccursAt(s, sub, i)
  }

  /** `c.lower()` for one character; only ASCII letters are folded. */
  function LowerChar(c: char): char {
    if 'A' <= c <= 'Z' then (c as int + 32) as char else c
  }

  /** `s.lower()`, character by character (ASCII folding only). */
  function Lower(s: string): (r: string)
    ensures |r| == |s|
    ensures forall i :: 0 <= i < |s| ==> r[i] == LowerChar(s[i])
  {
    seq(|s|, i requires 0 <= i < |s| => LowerChar(s[i]))
  }
}
